=== FILE: README.md ===
# Account core of backend-rdv, in Dafny

backend-rdv is an Express and PostgreSQL backend for an appointment system.
This project models its account core:

- registration, with role normalisation and username derivation;
- login, with one error for an unknown email and a wrong password alike;
- the password-reset token life cycle: save with a one-hour expiry, check, consume;
- reading, updating and deleting a profile;
- the Joi request schemas, written as rule lists and read back as field predicates;
- the controllers' mapping from service errors to HTTP statuses and messages;
- the global error handler and the handler for unknown routes;
- the bearer-token guard and the role guard.

The `users` table is an immutable `Store`. It holds a map from the SERIAL id to the row, plus the next value of the id sequence.
Every service query becomes a pure transition that returns a `Result`. The invariants of the table schema are the predicate `Accounts.Valid`:

- ids come from the sequence;
- `email` is unique;
- `username` is unique.

Each operation proves that it preserves them.

Some parts are parameters rather than model:

- bcrypt's `hash` and `compare`, and the JWT signer, form the record `Crypto`. Two properties are assumed of them, each where it is needed:
  - a password matches its own digest (`HashVerifies`);
  - in `Controllers.LoginThenAuthenticate` only, JWT verification gives back the user id and role that were signed.
- JWT verification is a function from the token to a `Verdict`.
- The random reset token, the clock `now` (in milliseconds) and the outcome of sending a mail are plain arguments.
- Joi's address validator is the function `isEmail`.

Modules, one per file:

| file | module | models |
|---|---|---|
| wrappers.dfy | Wrappers | `Option`, `Result` |
| text.dfy | Text | JavaScript string operations: `toLowerCase`, `replace(/\s+/g, '')`, `trim`, `split(' ')`, number-to-decimal |
| request.dfy | Http | request bodies and failure replies |
| accounts.dfy | Accounts | the `users` row, the table and its invariants, lookups by column |
| usernames.dfy | UsernameDerivation | `generateUsername` and the suffix loop of `createUser` |
| user_service.dfy | UserService | `userService.js` |
| service_properties.dfy | ServiceProperties | properties that span several service calls |
| validation.dfy | Validation | `userValidation.js` and the two regular expressions |
| auth_middleware.dfy | AuthMiddleware | `auth.js` |
| controllers.dfy | Controllers | `authController.js` and `userController.js` |
| error_handler.dfy | ErrorHandling | `errorHandler.js` |
| registration_flow.dfy | RegistrationFlow | a validated body carried through `register` |

Some behaviour of the code worth knowing:

- Only `createUser` and `updateUser` set `updated_at` (src/services/userService.js:26-61 and 150-177). `saveResetToken` and `resetPassword` leave it unchanged (src/services/userService.js:96-136).
- The stored values are `Masculin`/`Feminin` and `admin`/`patient`/`docteur`, as in the CHECK constraints (src/database/migrate.js:12-13) and the schemas.
- The table refuses what the request schemas accept in several ways, and each ends in a 500:
  - Two names of 50 letters pass the name rules but derive a username of 101 characters, longer than `username` VARCHAR(100) (src/database/migrate.js:9).
  - An address longer than 100 characters that passes the address validator is longer than `email` VARCHAR(100).
  - An id above 2147483647 passes `userIdValidation` but is outside PostgreSQL's `integer`, the type of `id SERIAL` (src/database/migrate.js:5).
  The model states these outcomes in `UserService.CreateUser`, `UserService.GetUserById`, `RegistrationFlow.ValidatedRegistrationOutcome` and `Controllers.ValidatedIdOutcome`.

## Model

| member | source | states |
|---|---|---|
| Accounts.RoleNamed | src/database/migrate.js:13 | a role name passes the CHECK constraint exactly when it is `admin`, `patient` or `docteur`, and maps back to that name |
| Accounts.SexeNamed | src/database/migrate.js:12 | a `sexe` value passes the CHECK constraint exactly when it is `Masculin` or `Feminin` |
| Accounts.FindByEmail | src/services/userService.js:65-70 | the row found carries the email; on a consistent table nothing is found exactly when no row has that email |
| Accounts.FindByEmailUnique | src/database/migrate.js:8 | with `email` UNIQUE, the row with a given email is the one a lookup finds |
| UsernameDerivation.Normalize | src/services/userService.js:9-10 | a normalised name has no white space and no upper-case letter |
| UsernameDerivation.NormalizeChar | src/services/userService.js:9-10 | one character normalises to nothing when it is white space, else to its lower-case form |
| UsernameDerivation.NormalizeConcat | src/services/userService.js:9-10 | normalisation works character by character: the normalised concatenation is the concatenation of the normalised parts, so every other character is kept, lower-cased and in order |
| UsernameDerivation.NormalizeIdempotent | src/services/userService.js:9-10 | normalising twice gives the same name as normalising once |
| UsernameDerivation.GenerateUsername | src/services/userService.js:8-12 | the username is the normalised first name, one `_`, then the normalised last name, with no white space and no upper case |
| UsernameDerivation.GenerateUsernameNormalized | src/services/userService.js:8-12 | deriving from already normalised names gives the same username |
| UsernameDerivation.GenerateUsernameWithoutSpaces | src/services/userService.js:8-12 | for names without white space, the username is the two lower-cased names around `_` |
| UsernameDerivation.CandidatesDistinct | src/services/userService.js:36-41 | `base`, `base_1`, `base_2`, ... are pairwise distinct |
| UsernameDerivation.TakenBound | src/services/userService.js:36-41 | if the first n candidates are all taken, at least n names are taken, so the loop ends |
| UsernameDerivation.FirstFree | src/services/userService.js:36-41 | the chosen index names a free candidate, every lower index is taken, and it is at most the number of taken names |
| UsernameDerivation.FirstFreeUnique | src/services/userService.js:36-41 | only one index is free with all lower indices taken |
| UsernameDerivation.PickUsername | src/services/userService.js:36-41 | the loop ends on a name not taken, and that name is the first free candidate |
| UserService.MessagesDistinct | src/services/userService.js:72-183 | the service's errors carry pairwise distinct messages, so matching on the message identifies the error |
| UserService.CheckEmailExists | src/services/userService.js:14-18 | true exactly when some row has the email |
| UserService.CheckUsernameExists | src/services/userService.js:20-24 | true exactly when some row has the username |
| UserService.ChosenUsernameChecked | src/services/userService.js:36-41 | the suffix loop's query reports every candidate before the chosen username as taken and the chosen one as free |
| UserService.NormalizeRole | src/services/userService.js:28-34 | the role is `docteur` exactly when one is supplied that lower-cases to `docteur`, otherwise `patient`; never `admin` |
| UserService.InsertRow | src/services/userService.js:43-60 | once the id is drawn and the values fit: a bad `sexe` fails with the CHECK code 23514, then a taken email, a taken username or a taken id with the UNIQUE code 23505; otherwise exactly one row is added with the submitted fields, and the table stays consistent |
| UserService.CreateUser | src/services/userService.js:26-61 | fails exactly when the table refuses the row, each time with a database error, in the order PostgreSQL finds them: a value longer than its VARCHAR column (22001, found while the statement is planned), the id sequence past 2147483647 (2200H, when the id is drawn), `sexe` outside the CHECK (23514), or a taken email (23505). On success it adds exactly one row, with the next id, the submitted fields, the hashed password, the normalised role, the first free username and no reset ticket, and returns it without the password. The table stays consistent |
| UserService.AuthenticateUser | src/services/userService.js:64-82 | fails only with the generic credentials error; on success returns the row for that email, without the password, whose digest accepts the password, and a token signed for its id and role |
| UserService.AuthenticateSucceedsIff | src/services/userService.js:64-82 | with unique emails, login succeeds exactly when the row with that email accepts the password |
| UserService.AuthenticateFailuresIdentical | src/services/userService.js:71-78 | an unknown email and a wrong password give the same message |
| UserService.SaveResetToken | src/services/userService.js:96-109 | fails with `Email non trouvé` exactly when no row has the email. Otherwise only that email's rows change, and they get the token with an expiry of now plus one hour, whatever they held before |
| UserService.VerifyResetToken | src/services/userService.js:111-122 | succeeds exactly when some row holds the token with an expiry strictly after now, and returns that row's fields |
| UserService.ResetPassword | src/services/userService.js:124-136 | fails exactly when the token check fails, leaving the table alone; on success only the redeemed row changes, getting the new digest and no reset ticket |
| UserService.RequestPasswordReset | src/services/userService.js:188-197 | an unknown email fails and writes nothing; otherwise the token is stored, and the call fails exactly when the mail fails |
| UserService.GetUserById | src/services/userService.js:138-148 | an id outside PostgreSQL's `integer` fails with the database error 22003; otherwise returns the row's profile exactly when the id exists, else `Utilisateur non trouvé` |
| UserService.Writable | src/services/userService.js:151-161 | the columns written are the allowed keys of the body whose value is not undefined |
| UserService.UpdateUser | src/services/userService.js:150-177 | no writable key fails before the lookup; an id outside `integer` fails with 22003; a value longer than its column fails with 22001, whether or not the id has a row; otherwise an unknown id fails with `Utilisateur non trouvé`. For an existing row, the update fails exactly when some written value is refused by the table: null, longer than its column, or a `sexe` outside the CHECK. On success only that row changes: the written columns take the body's values, `updated_at` becomes now, and id, email, username, password, role, reset ticket and creation time stay |
| UserService.DeleteUser | src/services/userService.js:179-186 | removes exactly the row with that id, or fails with `Utilisateur non trouvé` when there is none, or with 22003 for an id outside `integer` |
| ServiceProperties.SavedTokenValidWithinHour | src/services/userService.js:96-122 | a token just saved passes the check at any time before the hour is up |
| ServiceProperties.SavedTokenExpires | src/services/userService.js:97-115 | from the expiry instant on, the token is refused, unless another account holds the same token |
| ServiceProperties.SaveOverwritesToken | src/services/userService.js:98-101 | saving a new token removes the email's rows from the holders of any previous token |
| ServiceProperties.ResetConsumesToken | src/services/userService.js:124-136 | a successful reset removes exactly the redeemed row from the token's holders |
| ServiceProperties.ResetTokenSingleUse | src/services/userService.js:124-136 | a token held by one account opens one reset; the same token is refused afterwards at any time |
| ServiceProperties.ResetThenLogin | src/services/userService.js:64-82 | after a reset, the account's email and the new password log in |
| ServiceProperties.RegisterThenLogin | src/services/userService.js:26-82 | after a registration, its email and password log in as the new row, with a token for its id and role |
| ServiceProperties.SecondRegistrationGetsSuffix | src/services/userService.js:36-41 | when the plain username is taken and `_1` is free, registration takes `_1` |
| ServiceProperties.CreatedUserFound | src/services/userService.js:138-148 | a registered account reads back by its id exactly as registration returned it |
| ServiceProperties.DeletedUserGone | src/services/userService.js:179-186 | after a deletion the id is not found, and every other id reads as before |
| ServiceProperties.UpdatedUserFound | src/services/userService.js:150-177 | after an update, reading the account by its id shows the columns the update returned: id, names, email, username, phone, sexe, address and role |
| Validation.FirstIssue | src/validations/userValidation.js:5-9 | a field passes its rules exactly when every rule passes |
| Validation.CheckString | src/validations/userValidation.js:5-9 | a missing value passes exactly when the field is optional; `null` never passes |
| Validation.Validate | src/validations/userValidation.js:4-73 | a body passes exactly when every field passes and, unless unknown keys are allowed, every key is declared |
| Validation.PhoneAccepted | src/validations/userValidation.js:45-48 | the phone rule accepts exactly ten characters: `0`, `1`, then eight digits |
| Validation.PasswordRegexIff | src/validations/userValidation.js:37 | the password pattern holds exactly when a lower-case letter, an upper-case letter, a digit and one of `!@#$%^&*` all occur before the first line break |
| Validation.PasswordAccepted | src/validations/userValidation.js:35-38 | a new password is accepted exactly when it has at least 8 characters and the four kinds occur on its first line |
| Validation.PasswordOneLine | src/validations/userValidation.js:111-114 | for a password without line breaks: at least 8 characters and one of each kind anywhere |
| Validation.PasswordAfterLineBreak | src/validations/userValidation.js:37 | characters after a line break add length but count for no kind |
| Validation.NameAccepted | src/validations/userValidation.js:5-9 | first and last names are accepted exactly when their trimmed length is between 2 and 50 |
| Validation.AdresseAccepted | src/validations/userValidation.js:63-67 | the address is accepted exactly when its trimmed length is between 10 and 255 |
| Validation.EmailAccepted | src/validations/userValidation.js:27-29 | the email is accepted exactly when it is non-empty and a valid address |
| Validation.SexeAccepted | src/validations/userValidation.js:55-57 | a present `sexe` is accepted exactly when it is `Masculin` or `Feminin`, spelled exactly |
| Validation.LoginPasswordAccepted | src/validations/userValidation.js:85-86 | login accepts any non-empty password |
| Validation.LoginWeakerThanRegister | src/validations/userValidation.js:35-37 | some password passes login but fails registration |
| Validation.RegisterFields | src/validations/userValidation.js:4-73 | the registration fields pass exactly when each of the seven field rules passes |
| Validation.RegisterNeedsAllFields | src/validations/userValidation.js:4-73 | an accepted registration carries all seven fields as text |
| Validation.RegisterAccepted | src/validations/userValidation.js:4-73 | registration accepts exactly the bodies whose seven fields satisfy the field predicates |
| Validation.LoginAccepted | src/validations/userValidation.js:76-90 | login accepts exactly a valid address and a non-empty password |
| Validation.ResetPasswordBodyAccepted | src/validations/userValidation.js:104-120 | a reset request is accepted exactly with a non-empty token and a strong password |
| Validation.ForgotPasswordBodyAccepted | src/validations/userValidation.js:93-101 | a reset-mail request is accepted exactly with a valid address |
| Validation.UpdateAcceptsEmpty | src/validations/userValidation.js:123-169 | every profile field is optional, so the empty body passes |
| Validation.UpdateRefusesRoleKey | src/validations/userValidation.js:123-169 | the profile schema declares no `role`, so with unknown keys refused a body naming `role` fails |
| Validation.RegisterRefusesRoleKey | src/validations/userValidation.js:4-73 | the registration schema declares no `role` either |
| Validation.UserIdWhole | src/validations/userValidation.js:171-176 | a whole number is accepted as an id exactly when it is at least 1 |
| Validation.UserIdFraction | src/validations/userValidation.js:172 | a number with a fractional part is refused |
| AuthMiddleware.BearerToken | src/middleware/auth.js:7-10 | a token is a non-empty word without spaces; a missing or empty header, or one without a space, gives none |
| AuthMiddleware.BearerTokenOf | src/middleware/auth.js:8 | the second word of `scheme token` is the token |
| AuthMiddleware.BearerTokenFollowed | src/middleware/auth.js:8 | words after the token are ignored |
| AuthMiddleware.DoubleSpaceNoToken | src/middleware/auth.js:8-15 | two spaces after the scheme leave an empty second word, so no token |
| AuthMiddleware.AuthenticateToken | src/middleware/auth.js:5-46 | the request passes exactly when a token is present, verifies, and names an existing row, whose stored profile is attached. No token gives 401 `Token d'accès requis`, an expired one 401 `Token expiré`, a malformed one 401 `Token invalide`; every other failure is 500 with the generic message |
| AuthMiddleware.VerifiedTokenPasses | src/middleware/auth.js:18-23 | on a consistent table, a verified token passes exactly when its user still has a row |
| AuthMiddleware.TokenRoleIgnored | src/middleware/auth.js:18-23 | two tokens for the same user id authenticate alike, whatever role each claims |
| AuthMiddleware.AuthorizeRole | src/middleware/auth.js:48-58 | passes exactly when there is a user and its stored role is listed; otherwise 403 |
| AuthMiddleware.AdminOnly | src/middleware/auth.js:50 | `authorizeRole('admin')` admits exactly administrators |
| AuthMiddleware.StoredRoleDecides | src/middleware/auth.js:21-23 | behind the token guard, the role check reads the stored role of the token's user |
| Controllers.Register | src/controllers/authController.js:6-37 | a known email gives 409 and writes nothing; otherwise 201 `Compte créé avec succès` with the created user exactly when `createUser` succeeds, else 500 and no write |
| Controllers.RegisterFailsOnlyInTable | src/controllers/authController.js:10-36 | past the email check, on a consistent table, registration fails exactly when the table refuses the row: spent sequence, a value too long for its column, or a bad `sexe` |
| Controllers.RegisterTwice | src/controllers/authController.js:10-16 | registering an email a second time gives 409 and writes nothing |
| Controllers.Login | src/controllers/authController.js:39-68 | succeeds exactly when authentication does, with a token for the user's id and role; every failure is 401 with the credentials message |
| Controllers.LoginThenAuthenticate | src/middleware/auth.js:7-23 | the token a login returns, sent as `Bearer <token>`, authenticates as the logged-in user, given a verifier that accepts what the signer produced |
| Controllers.ForgotPassword | src/controllers/authController.js:85-110 | an unknown email gives 404 `Aucun compte associé à cet email`; a failed mail gives 500 after the token was stored; success gives 200 |
| Controllers.ForgotPasswordMailFailureKeepsToken | src/services/userService.js:188-192 | after a 500 for a failed mail, the stored token still passes the check for the rest of the hour |
| Controllers.ResetPasswordHandler | src/controllers/authController.js:113-139 | 200 exactly when the token is valid; otherwise 400 `Token invalide ou expiré` and no write |
| Controllers.VerifyResetTokenHandler | src/controllers/authController.js:142-172 | 200 exactly when some row holds the token unexpired, exposing only that row's email and first name; otherwise 400 |
| Controllers.GetProfile | src/controllers/userController.js:5-13 | answers 200 with the attached user, unchanged |
| Controllers.ProfileIsStoredRow | src/controllers/userController.js:7-13 | behind the token guard, the profile shown is the stored row of the token's user |
| Controllers.UpdateProfile | src/controllers/userController.js:25-63 | 400 exactly when no writable key remains once `role` is gone; 404 exactly when the authenticated id has no row and no written value is too long for its column; 500 with the generic message exactly when the id is outside `integer`, a written value is too long, or the existing row's table refuses a written value; otherwise 200 with `Profil mis à jour avec succès`. On 200 only that row changes and its role stays; on failure nothing is written |
| Controllers.RoleKeyIgnored | src/controllers/userController.js:31 | whatever the body says under `role`, the update comes out the same |
| Controllers.RoleNotEditable | src/services/userService.js:151-156 | removing `role` changes nothing that `updateUser` does |
| Controllers.GetUserByIdHandler | src/controllers/userController.js:66-93 | 200 with the row's profile exactly when the id is an `integer` with a row; 404 `Utilisateur non trouvé` exactly when it is an `integer` without one; any other failure, such as an id outside `integer`, is 500 with the generic message |
| Controllers.ValidatedIdOutcome | src/controllers/userController.js:66-93 | for an id that passes `userIdValidation`, on a consistent table: 200 exactly when it has a row, 404 exactly when it is at most 2147483647 without a row, 500 exactly when it is larger |
| ErrorHandling.HandleError | src/middleware/errorHandler.js:2-55 | one outcome per branch, in the handler's order: 23505 gives 409 `Une ressource avec ces données existe déjà`, 23503 gives 400 `Référence invalide`, 23514 gives 400 `Données invalides`, a connection code gives 503 `Service temporairement indisponible`, a parser error with status 400 and a body gives 400 `Format JSON invalide`, status 403 gives 403 `Accès interdit`, and anything else passes its status (500 when absent or zero) and its message (the generic text when empty). The status is never zero and the message never empty |
| ErrorHandling.KnownCodeHidesDetails | src/middleware/errorHandler.js:6-33 | for a recognised code, the reply depends on the code alone, not on the error's message or status |
| ErrorHandling.CodeBeforeStatus | src/middleware/errorHandler.js:6-49 | code 23505 gives 409 even when the error also carries status 403 |
| ErrorHandling.SyntaxErrorNeedsBody | src/middleware/errorHandler.js:36-41 | a parser error with status 400 is reported as bad JSON only when it has a body |
| ErrorHandling.OrdinaryErrorPassesThrough | src/middleware/errorHandler.js:51-54 | an error with no recognised code, an ordinary status and a message is passed through unchanged |
| ErrorHandling.PlainErrorIs500 | src/middleware/errorHandler.js:51-54 | an error with neither code nor status gives 500 with its message |
| ErrorHandling.NotFound | src/middleware/errorHandler.js:58-63 | 404, with a message made of `Route `, the method, a space, the URL and ` non trouvée` |
| ErrorHandling.NotFoundNamesUrl | src/middleware/errorHandler.js:61 | for one method, different URLs give different messages |
| RegistrationFlow.RegistrationOf | src/services/userService.js:27 | a body yields a registration exactly when its seven fields are text, and the registration holds them |
| RegistrationFlow.ValidatedRegistration | src/validations/userValidation.js:4-73 | a body the registration schema accepts yields a registration with a valid phone, a first name of 2 to 50 trimmed characters and a valid `sexe` |
| RegistrationFlow.ValidatedRegistrationOutcome | src/controllers/authController.js:6-37 | on a consistent table, a validated body is stored, refused with 409 for a taken email, or refused with 500 exactly when the email is new and the sequence is spent or a value is longer than its column; the schema rules out a bad `sexe`. The stored phone and first name satisfy the field rules |
| RegistrationFlow.LongNamesPassSchema | src/validations/userValidation.js:5-25 | two names of 50 non-space characters pass the name rules, yet derive a username of 101 characters |
| RegistrationFlow.LongUsernameIs500 | src/controllers/authController.js:18-36 | a derived username longer than 100 characters makes `register` answer 500 for a new email |

## Left out

- Mail sending is an argument: `mailSent` for the reset mail, whose failure the service rethrows. The welcome mail is not awaited, and its failure is caught and logged, so it cannot change the reply. The mail texts are not modelled. This includes the reset mail's greeting, which receives `user.username`, a column the `RETURNING` of `saveResetToken` does not select.
- bcrypt, JWT signing and verification, and `crypto.randomBytes` are parameters. No claim about them is made beyond `HashVerifies`, and, in `Controllers.LoginThenAuthenticate`, that verification accepts what the signer produced. `generateJWT` and `generateResetToken` have no model of their own.
- Token expiry inside the JWT (`JWT_EXPIRES_IN`) is part of the verifier's outcome, not computed.
- Lower-casing covers ASCII letters only. `toLowerCase` also maps non-ASCII letters, but the model leaves them unchanged.
- White space is the full set that JavaScript's `\s` and `trim` recognise. String lengths count code points, not UTF-16 units.
- Joi's address validator is the parameter `isEmail`. For `userIdValidation` only the integer and positivity rules are modelled; the conversion from the path string to a number and Joi's safe-integer range are not. Ids beyond `integer` are modelled on the database side (`UserService.GetUserById`).
- Request values are text, `null` or undefined. Other JSON types (numbers, booleans, objects) are not modelled.
- The validation middleware (`middleware/validation.js`) is not part of this model. Whether it allows unknown keys is the `allowUnknown` argument. It is not known whether it passes the trimmed values on; the model passes the raw body.
- The VARCHAR limits are checked for the columns whose values come from the request: `firstname`, `lastname`, `email`, `username`, `phone` and `sexe`. They are not checked for `password` and `reset_token`, which hold a bcrypt digest (60 characters) and a 64-character hex token, both well inside VARCHAR(255).
- UserService.CreateUser, UserService.UpdateUser: PostgreSQL silently cuts a VARCHAR value whose characters past the limit are all spaces. The model instead refuses every value longer than its column with 22001, so for such values its 500 stands where PostgreSQL would store the cut value.
- UserService.AuthenticateUser, Controllers.Login, Controllers.ResetPasswordHandler, Controllers.VerifyResetTokenHandler: the database is assumed reachable. In the program a refused connection or a timeout makes `pool.query` throw, and the handlers answer 500 (src/controllers/authController.js:63-66, 105-108, 134-137, 166-169). The model has no such failure, so the credentials error is the only failure of `AuthenticateUser`, every failed login is a 401, and every failed token check is a 400. The same holds for every other service operation.
- ServiceProperties.SavedTokenValidWithinHour, ServiceProperties.SavedTokenExpires: there are two clocks, and the model uses one `now` for both. `Date.now()` computes the expiry (src/services/userService.js:97) and the database's `NOW()` checks it (src/services/userService.js:115). The larger effect is a time-zone shift, not drift:
  - `reset_token_expires` is a `TIMESTAMP` without time zone (src/database/migrate.js:16);
  - node-postgres sends the JavaScript `Date` as local time with an offset, and PostgreSQL drops the offset for that type;
  - `> NOW()` reads the stored value in the session's time zone;
  - so the one-hour window is moved by the gap between the Node process's time zone and the session's. `config/database.js` sets neither, so the two agree only when the deployment makes them agree.
- Concurrency is not modelled. Each request runs alone, so the races between the email check and the insert, the username check and the insert, and the token check and the reset update do not arise.
- An insert refused by the CHECK or a UNIQUE index does not consume a sequence value in the model. In PostgreSQL it does, because the id is drawn before those constraints are checked; this only changes which ids later rows get. An over-long value is refused while the statement is planned, before any id is drawn.
- When several rows hold the same reset token, the model redeems the one with the least id. PostgreSQL does not specify the order.
- `logout` answers a fixed 200 and touches nothing, so a token stays valid after logout. It has no model.
- `AuthMiddleware.AuthenticateToken` keeps only the user id of a verified token. Any other claim, including the role, is ignored, as `auth.js` does.
- Route wiring, rate limiting and server setup are not modelled. Three wiring defects of the routes are noted here and not modelled:
  - `DELETE /users/profile` names `userController.deleteUser`, which does not exist (src/routes/userRoutes.js:22).
  - `authorizeRole('admin')` sits after the `getUserById` handler, which answers without calling `next`. The role check is therefore never reached, and any signed-in user can read any account (src/routes/userRoutes.js:25-29).
  - With Joi's default of refusing unknown keys, the registration schema rejects a `role` key, so `UserService.NormalizeRole` only matters if the middleware allows unknown keys.

=== FILE: accounts.dfy ===
/**
 * The `users` table: one `Account` per row, held in a map from the SERIAL
 * primary key to the row, together with the next value of the id sequence.
 */
module Accounts {
  import opened Wrappers

  /** The `role` column; its CHECK constraint admits exactly these three names. */
  datatype Role = Admin | Patient | Docteur

  function RoleName(r: Role): string {
    match r
    case Admin => "admin"
    case Patient => "patient"
    case Docteur => "docteur"
  }

  /** The role whose stored name is `name`, if any. */
  function RoleNamed(name: string): (r: Option<Role>)
    ensures r.Some? <==> name in {"admin", "patient", "docteur"}
    ensures r.Some? ==> RoleName(r.value) == name
  {
    if name == "admin" then Some(Admin)
    else if name == "patient" then Some(Patient)
    else if name == "docteur" then Some(Docteur)
    else None
  }

  /** The `sexe` column; its CHECK constraint admits exactly these two names. */
  datatype Sexe = Masculin | Feminin

  function SexeName(x: Sexe): string {
    match x
    case Masculin => "Masculin"
    case Feminin => "Feminin"
  }

  /** The value the CHECK constraint on `sexe` lets through, or None for a row it rejects. */
  function SexeNamed(name: string): (r: Option<Sexe>)
    ensures r.Some? <==> name == "Masculin" || name == "Feminin"
    ensures r.Some? ==> SexeName(r.value) == name
  {
    if name == "Masculin" then Some(Masculin)
    else if name == "Feminin" then Some(Feminin)
    else None
  }

  /**
   * The pending password reset of an account: the `reset_token` and
   * `reset_token_expires` columns, which every query writes together, so
   * that either both are NULL or both are set. Times are milliseconds.
   */
  datatype ResetTicket = ResetTicket(token: string, expires: int)

  /** One row of `users`. `password` holds the bcrypt digest, never the plain text. */
  datatype Account = Account(
    id: int,
    firstname: string,
    lastname: string,
    email: string,
    username: string,
    password: string,
    phone: string,
    sexe: Sexe,
    role: Role,
    adresse: string,
    reset: Option<ResetTicket>,
    createdAt: int,
    updatedAt: int)

  /** The largest value of PostgreSQL's 32-bit `integer`, the type behind `SERIAL`. */
  const MaxSerial: int := 2147483647

  /** Whether `n` is a value of PostgreSQL's `integer`. */
  predicate IsInt4(n: int) {
    -MaxSerial - 1 <= n <= MaxSerial
  }

  /**
   * The declared length of the VARCHAR columns whose values come from a
   * request; `adresse` is TEXT and has none.
   */
  function Width(column: string): Option<nat> {
    if column == "firstname" || column == "lastname" then Some(50)
    else if column == "email" || column == "username" then Some(100)
    else if column == "phone" || column == "sexe" then Some(10)
    else None
  }

  /** Whether `value` fits its column, rather than PostgreSQL raising "value too long". */
  predicate Fits(column: string, value: string) {
    Width(column).None? || |value| <= Width(column).value
  }

  /** The table and the next value its `id` sequence will hand out. */
  datatype Store = Store(rows: map<int, Account>, nextId: int)

  /** A table with no rows, whose sequence starts at 1. */
  const Empty: Store := Store(map[], 1)

  /**
   * The invariants the schema enforces: ids come from the sequence, which
   * stops after the largest `integer`, and match their key, and the UNIQUE
   * columns `email` and `username` are unique.
   */
  predicate Valid(s: Store) {
    && 1 <= s.nextId <= MaxSerial + 1
    && (forall i | i in s.rows :: 1 <= i < s.nextId && s.rows[i].id == i)
    && (forall i, j | i in s.rows && j in s.rows && i != j ::
          s.rows[i].email != s.rows[j].email && s.rows[i].username != s.rows[j].username)
  }

  function Emails(s: Store): set<string> {
    set i | i in s.rows :: s.rows[i].email
  }

  function Usernames(s: Store): set<string> {
    set i | i in s.rows :: s.rows[i].username
  }

  /** The least id in `[from, bound)` whose row satisfies `p`. */
  function FirstMatch(rows: map<int, Account>, p: Account -> bool, from: int, bound: int): (r: Option<int>)
    ensures r.Some? ==> from <= r.value < bound && r.value in rows && p(rows[r.value])
    ensures r.Some? ==> forall j | from <= j < r.value && j in rows :: !p(rows[j])
    ensures r.None? ==> forall j | from <= j < bound && j in rows :: !p(rows[j])
    decreases bound - from
  {
    if from >= bound then None
    else if from in rows && p(rows[from]) then Some(from)
    else FirstMatch(rows, p, from + 1, bound)
  }

  /**
   * The row a `SELECT ... WHERE <p>` returns first. The table gives no order;
   * the model takes the least id, which only matters when several rows match.
   */
  function Find(s: Store, p: Account -> bool): (r: Option<int>)
    ensures r.Some? ==> r.value in s.rows && p(s.rows[r.value])
    ensures Valid(s) && r.None? ==> forall j | j in s.rows :: !p(s.rows[j])
  {
    FirstMatch(s.rows, p, 1, s.nextId)
  }

  /** The row with the given email, if any. */
  function FindByEmail(s: Store, email: string): (r: Option<int>)
    ensures r.Some? ==> r.value in s.rows && s.rows[r.value].email == email
    ensures Valid(s) ==> (r.None? <==> email !in Emails(s))
  {
    Find(s, (a: Account) => a.email == email)
  }

  /** Under the schema invariants the row with a given email is the only one. */
  lemma FindByEmailUnique(s: Store, email: string, i: int)
    requires Valid(s)
    requires i in s.rows && s.rows[i].email == email
    ensures FindByEmail(s, email) == Some(i)
  {
  }

  /** The columns `getUserById` selects and `createUser` returns: everything but the secrets. */
  datatype Profile = Profile(
    id: int,
    firstname: string,
    lastname: string,
    email: string,
    username: string,
    phone: string,
    sexe: Sexe,
    adresse: string,
    role: Role,
    createdAt: int)

  function ProfileOf(a: Account): Profile {
    Profile(a.id, a.firstname, a.lastname, a.email, a.username, a.phone, a.sexe, a.adresse, a.role, a.createdAt)
  }
}

=== FILE: auth_middleware.dfy ===
/**
 * The two guards in front of the protected routes: `authenticateToken`,
 * which turns an `Authorization: Bearer <jwt>` header into the stored
 * profile of the user, and `authorizeRole`, which admits listed roles only.
 */
module AuthMiddleware {
  import opened Wrappers
  import opened Text
  import opened Http
  import opened Accounts
  import opened UserService

  /** `authHeader && authHeader.split(' ')[1]`, kept only when non-empty. */
  function BearerToken(header: Option<string>): (r: Option<string>)
    ensures r.Some? ==> r.value != "" && ' ' !in r.value
    ensures header.None? || header.value == "" ==> r.None?
    ensures header.Some? && ' ' !in header.value ==> r.None?
  {
    if header.None? || header.value == "" then None
    else
      var parts := Split(header.value, ' ');
      if ' ' !in header.value then
        IndexOfAbsent(header.value, ' ');
        None
      else if |parts| >= 2 && parts[1] != "" then Some(parts[1])
      else None
  }

  /** The second word of `scheme token` is the token, whatever the scheme word. */
  lemma BearerTokenOf(scheme: string, token: string)
    requires ' ' !in scheme && ' ' !in token && token != ""
    ensures BearerToken(Some(scheme + " " + token)) == Some(token)
  {
    var h := scheme + [' '] + token;
    assert scheme + " " + token == h;
    assert h[|scheme|] == ' ';
    TwoWords(scheme, token);
  }

  /** Words after the token are ignored. */
  lemma BearerTokenFollowed(scheme: string, token: string, rest: string)
    requires ' ' !in scheme && ' ' !in token && token != ""
    ensures BearerToken(Some(scheme + " " + token + " " + rest)) == Some(token)
  {
    var h := scheme + [' '] + (token + [' '] + rest);
    assert scheme + " " + token + " " + rest == h;
    assert h[|scheme|] == ' ';
    MoreWords(scheme, token, rest);
  }

  lemma TwoWords(scheme: string, token: string)
    requires ' ' !in scheme && ' ' !in token
    ensures Split(scheme + [' '] + token, ' ') == [scheme, token]
  {
    SplitStep(scheme, ' ', token);
    SplitNone(token, ' ');
  }

  lemma MoreWords(scheme: string, token: string, rest: string)
    requires ' ' !in scheme && ' ' !in token
    ensures Split(scheme + [' '] + (token + [' '] + rest), ' ') == [scheme, token] + Split(rest, ' ')
  {
    SplitStep(scheme, ' ', token + [' '] + rest);
    SplitStep(token, ' ', rest);
  }

  /** A header with two spaces in a row has an empty second word, so no token. */
  lemma DoubleSpaceNoToken(scheme: string, rest: string)
    requires ' ' !in scheme
    ensures BearerToken(Some(scheme + "  " + rest)).None?
  {
    assert scheme + "  " + rest == scheme + [' '] + ([] + [' '] + rest);
    SplitStep(scheme, ' ', [] + [' '] + rest);
    SplitStep([], ' ', rest);
  }

  /** What `jwt.verify` reports: the payload of a good token, or the name of the error it throws. */
  datatype Verdict =
    | Verified(userId: int, role: Role)
    | Expired          // TokenExpiredError
    | Malformed        // JsonWebTokenError: bad signature, bad format, wrong algorithm
    | NotYetActive     // NotBeforeError

  const TokenRequired: string := "Token d'accès requis"
  const TokenExpired: string := "Token expiré"
  const TokenInvalid: string := "Token invalide"

  /**
   * `authenticateToken`: the request goes on with the profile read from the
   * table for the token's user id; the role inside the token is not used.
   * A user id with no row, or outside `integer`, makes `getUserById` throw,
   * which ends in a 500, and so does a token that is not yet active.
   */
  function AuthenticateToken(s: Store, header: Option<string>, verify: string -> Verdict): (r: Result<Profile, Failure>)
    ensures r.Ok? <==>
      && BearerToken(header).Some?
      && verify(BearerToken(header).value).Verified?
      && IsInt4(verify(BearerToken(header).value).userId)
      && verify(BearerToken(header).value).userId in s.rows
    ensures r.Ok? ==> r.value == ProfileOf(s.rows[verify(BearerToken(header).value).userId])
    ensures BearerToken(header).None? ==> r == Err(Failure(401, TokenRequired))
    ensures BearerToken(header).Some? && verify(BearerToken(header).value) == Expired ==> r == Err(Failure(401, TokenExpired))
    ensures BearerToken(header).Some? && verify(BearerToken(header).value) == Malformed ==> r == Err(Failure(401, TokenInvalid))
    ensures r.Err? && r.error.status == 401 <==> BearerToken(header).None? || verify(BearerToken(header).value) in {Expired, Malformed}
    ensures r.Err? && r.error.status != 401 ==> r.error == Failure(500, InternalError)
  {
    var token := BearerToken(header);
    if token.None? then Err(Failure(401, TokenRequired))
    else
      match verify(token.value)
      case Expired => Err(Failure(401, TokenExpired))
      case Malformed => Err(Failure(401, TokenInvalid))
      case NotYetActive => Err(Failure(500, InternalError))
      case Verified(userId, _) =>
        match GetUserById(s, userId)
        case Ok(user) => Ok(user)
        case Err(_) => Err(Failure(500, InternalError))
  }

  /** With the table consistent, a verified token passes exactly when its user still has a row. */
  lemma VerifiedTokenPasses(s: Store, header: Option<string>, verify: string -> Verdict)
    requires Valid(s)
    requires BearerToken(header).Some? && verify(BearerToken(header).value).Verified?
    ensures AuthenticateToken(s, header, verify).Ok? <==> verify(BearerToken(header).value).userId in s.rows
  {
  }

  /** Two tokens for the same user id authenticate alike, whatever role each claims. */
  lemma TokenRoleIgnored(s: Store, h1: Option<string>, h2: Option<string>, v1: string -> Verdict, v2: string -> Verdict)
    requires BearerToken(h1).Some? && BearerToken(h2).Some?
    requires v1(BearerToken(h1).value).Verified? && v2(BearerToken(h2).value).Verified?
    requires v1(BearerToken(h1).value).userId == v2(BearerToken(h2).value).userId
    ensures AuthenticateToken(s, h1, v1) == AuthenticateToken(s, h2, v2)
  {
  }

  /** `authorizeRole(...allowedRoles)`: a user must be present and its stored role listed. */
  function AuthorizeRole(allowed: seq<string>, user: Option<Profile>): (r: Result<Profile, Failure>)
    ensures r.Ok? <==> user.Some? && RoleName(user.value.role) in allowed
    ensures r.Ok? ==> r.value == user.value
    ensures r.Err? ==> r.error == Failure(403, "Accès refusé. Rôle insuffisant.")
  {
    if user.None? || RoleName(user.value.role) !in allowed then Err(Failure(403, "Accès refusé. Rôle insuffisant."))
    else Ok(user.value)
  }

  /** `authorizeRole('admin')` admits exactly the administrators. */
  lemma AdminOnly(p: Profile)
    ensures AuthorizeRole(["admin"], Some(p)).Ok? <==> p.role == Admin
  {
  }

  /**
   * Behind `authenticateToken`, `authorizeRole('admin')` looks at the stored
   * role: a token that claims `admin` for a patient does not get through.
   */
  lemma StoredRoleDecides(s: Store, header: Option<string>, verify: string -> Verdict)
    requires AuthenticateToken(s, header, verify).Ok?
    ensures var u := AuthenticateToken(s, header, verify).value;
      AuthorizeRole(["admin"], Some(u)).Ok? <==> s.rows[verify(BearerToken(header).value).userId].role == Admin
  {
  }
}

=== FILE: controllers.dfy ===
/**
 * The route handlers of `AuthController` and `UserController`: each calls the
 * service and maps its outcome to a status and a JSON reply. Every handler
 * recognises a service error by comparing its message with a fixed string and
 * answers 500 with the generic message for anything else.
 */
module Controllers {
  import opened Wrappers
  import opened Text
  import opened Http
  import opened Accounts
  import opened UserService
  import opened AuthMiddleware
  import Validation

  /** The data a successful reply carries besides `success` and `message`. */
  datatype Payload =
    | Nothing
    | CreatedUser(user: Profile)
    | LoginToken(token: string)
    | ResetOwner(email: string, firstname: string)
    | CurrentUser(user: Profile)
    | UpdatedUser(updated: UpdatedProfile)

  /** A reply `{ success: true, message, ... }` with its status code. */
  datatype Success = Success(status: int, message: string, payload: Payload)

  type Reply = Result<Success, Failure>

  /** The catch block shape: one recognised message gets `status`, the rest a generic 500. */
  function Caught(e: ServiceError, recognised: string, status: int, message: string): (r: Failure)
    ensures Message(e) == recognised ==> r == Failure(status, message)
    ensures Message(e) != recognised ==> r == Failure(500, InternalError)
  {
    if Message(e) == recognised then Failure(status, message) else Failure(500, InternalError)
  }

  const EmailTaken: string := "Un compte avec cet email existe déjà"
  const NoAccountForEmail: string := "Aucun compte associé à cet email"

  // ---------------------------------------------------------------- AuthController

  /**
   * `register`: a known email is refused before anything is written; any
   * failure of `createUser` is a 500. The welcome mail is sent without being
   * awaited, so its outcome never reaches the reply.
   */
  function Register(s: Store, input: Registration, c: Crypto, now: int): (r: (Store, Reply))
    ensures r.1.Err? && r.1.error.status == 409 <==> CheckEmailExists(s, input.email)
    ensures r.1.Err? ==> r.0 == s
    ensures r.1.Ok? <==> !CheckEmailExists(s, input.email) && CreateUser(s, input, c, now).Ok?
    ensures r.1.Ok? ==> r.1.value.status == 201 && r.0 == CreateUser(s, input, c, now).value.0
    ensures r.1.Ok? ==> r.1.value.message == "Compte créé avec succès"
    ensures r.1.Ok? ==> r.1.value.payload == CreatedUser(CreateUser(s, input, c, now).value.1)
    ensures r.1.Err? ==> r.1.error.status in {409, 500}
  {
    if CheckEmailExists(s, input.email) then (s, Err(Failure(409, EmailTaken)))
    else
      match CreateUser(s, input, c, now)
      case Ok((s', user)) => (s', Ok(Success(201, "Compte créé avec succès", CreatedUser(user))))
      case Err(_) => (s, Err(Failure(500, InternalError)))
  }

  /**
   * After the email check, registration on a consistent table fails exactly
   * when the table refuses the row: the id sequence is spent, a value is
   * longer than its column, or `sexe` is outside its CHECK.
   */
  lemma RegisterFailsOnlyInTable(s: Store, input: Registration, c: Crypto, now: int)
    requires Valid(s)
    requires !CheckEmailExists(s, input.email)
    ensures Register(s, input, c, now).1.Err? <==>
      s.nextId > MaxSerial || !InsertFits(input, ChosenUsername(s, input)) || SexeNamed(input.sexe).None?
  {
  }

  /** Registering the same email twice: the second attempt is a 409 and writes nothing. */
  lemma RegisterTwice(s: Store, first: Registration, second: Registration, c: Crypto, now: int, later: int)
    requires Register(s, first, c, now).1.Ok?
    requires second.email == first.email
    ensures var s' := Register(s, first, c, now).0;
      Register(s', second, c, later) == (s', Err(Failure(409, EmailTaken)))
  {
    var s' := Register(s, first, c, now).0;
    assert s'.rows[s.nextId].email == first.email;
  }

  /** `login`: the token is signed again from the user's id and stored role. */
  function Login(s: Store, email: string, password: string, c: Crypto): (r: Reply)
    ensures r.Ok? <==> AuthenticateUser(s, email, password, c).Ok?
    ensures r.Err? ==> r.error == Failure(401, "Email ou mot de passe incorrect")
    ensures r.Ok? ==> r.value.status == 200 && r.value.message == "Connexion réussie" && r.value.payload.LoginToken?
    ensures r.Ok? ==>
      var user := AuthenticateUser(s, email, password, c).value.user;
      r.value.payload.token == c.sign(user.id, user.role)
  {
    match AuthenticateUser(s, email, password, c)
    case Ok(session) => Ok(Success(200, "Connexion réussie", LoginToken(c.sign(session.user.id, session.user.role))))
    case Err(e) => Err(Caught(e, "Email ou mot de passe incorrect", 401, Message(e)))
  }

  /**
   * The token a login hands out opens the protected routes as that user,
   * given that the verifier accepts what the signer produced and that the
   * token is a single word (a JWT is dot-separated base64url).
   */
  lemma LoginThenAuthenticate(s: Store, email: string, password: string, c: Crypto, verify: string -> Verdict)
    requires Valid(s)
    requires Login(s, email, password, c).Ok?
    requires var t := Login(s, email, password, c).value.payload.token;
      t != "" && ' ' !in t && verify(t).Verified?
    requires forall id: int, role: Role :: verify(c.sign(id, role)) == Verified(id, role)
    ensures var t := Login(s, email, password, c).value.payload.token;
      AuthenticateToken(s, Some("Bearer " + t), verify) == Ok(AuthenticateUser(s, email, password, c).value.user)
  {
    var t := Login(s, email, password, c).value.payload.token;
    var user := AuthenticateUser(s, email, password, c).value.user;
    assert ' ' !in "Bearer";
    assert "Bearer" + " " + t == "Bearer " + t;
    BearerTokenOf("Bearer", t);
    assert BearerToken(Some("Bearer " + t)) == Some(t);
    assert verify(t) == Verified(user.id, user.role);
    var i :| i in s.rows && ProfileOf(s.rows[i]) == user && c.compare(password, s.rows[i].password);
    assert s.rows[i].id == i && user.id == i;
    assert GetUserById(s, user.id) == Ok(user);
  }

  /** `forgotPassword`: an unknown email is a 404; a failed mail is a 500 although the token is already stored. */
  function ForgotPassword(s: Store, email: string, token: string, now: int, mailSent: bool): (r: (Store, Reply))
    ensures Valid(s) ==> (r.1.Err? && r.1.error.status == 404 <==> !CheckEmailExists(s, email))
    ensures r.1.Err? && r.1.error.status == 404 ==> r.1.error.message == NoAccountForEmail && r.0 == s
    ensures r.1.Ok? <==> SaveResetToken(s, email, token, now).Ok? && mailSent
    ensures r.1.Ok? ==> r.1.value.status == 200
    ensures SaveResetToken(s, email, token, now).Ok? ==> r.0 == SaveResetToken(s, email, token, now).value.0
    ensures SaveResetToken(s, email, token, now).Ok? && !mailSent ==> r.1 == Err(Failure(500, InternalError))
  {
    var (s', outcome) := RequestPasswordReset(s, email, token, now, mailSent);
    match outcome
    case Ok(message) => (s', Ok(Success(200, message, Nothing)))
    case Err(e) => (s', Err(Caught(e, "Email non trouvé", 404, NoAccountForEmail)))
  }

  /** A failed mail still leaves a working token behind: the reset link the user never got is valid for the hour. */
  lemma ForgotPasswordMailFailureKeepsToken(s: Store, email: string, token: string, now: int, later: int)
    requires Valid(s)
    requires CheckEmailExists(s, email)
    requires now <= later < now + ResetWindow
    ensures var (s', reply) := ForgotPassword(s, email, token, now, false);
      reply.Err? && reply.error.status == 500 && VerifyResetToken(s', token, later).Ok?
  {
    var s' := SaveResetToken(s, email, token, now).value.0;
    var i := FindByEmail(s, email).value;
    assert Redeemable(s'.rows[i], token, later);
  }

  /** `resetPassword`: an unusable token is a 400 with the service's message. */
  function ResetPasswordHandler(s: Store, token: string, password: string, c: Crypto, now: int): (r: (Store, Reply))
    ensures r.1.Ok? <==> VerifyResetToken(s, token, now).Ok?
    ensures r.1.Err? ==> r.1.error == Failure(400, "Token invalide ou expiré") && r.0 == s
    ensures r.1.Ok? ==> r.1.value == Success(200, "Mot de passe réinitialisé avec succès", Nothing)
    ensures r.1.Ok? ==> r.0 == ResetPassword(s, token, password, c, now).value.0
  {
    match ResetPassword(s, token, password, c, now)
    case Ok((s', _)) => (s', Ok(Success(200, "Mot de passe réinitialisé avec succès", Nothing)))
    case Err(e) => (s, Err(Caught(e, "Token invalide ou expiré", 400, Message(e))))
  }

  /** `verifyResetToken`: a valid token reveals the owner's email and first name, and nothing else. */
  function VerifyResetTokenHandler(s: Store, token: string, now: int): (r: Reply)
    ensures Valid(s) ==> (r.Ok? <==> exists i | i in s.rows :: Redeemable(s.rows[i], token, now))
    ensures r.Err? ==> r.error == Failure(400, "Token invalide ou expiré")
    ensures r.Ok? ==> r.value.message == "Token valide"
    ensures Valid(s) && r.Ok? ==> r.value.status == 200 && exists i | i in s.rows ::
      Redeemable(s.rows[i], token, now) && r.value.payload == ResetOwner(s.rows[i].email, s.rows[i].firstname)
  {
    match VerifyResetToken(s, token, now)
    case Ok(owner) => Ok(Success(200, "Token valide", ResetOwner(owner.email, owner.firstname)))
    case Err(e) => Err(Caught(e, "Token invalide ou expiré", 400, Message(e)))
  }

  // ---------------------------------------------------------------- UserController

  /** `getProfile`: the user `authenticateToken` attached, as it is. */
  function GetProfile(user: Profile): (r: Reply)
    ensures r.Ok? && r.value.status == 200
    ensures r.value.message == "Profil récupéré avec succès"
    ensures r.value.payload == CurrentUser(user)
  {
    Ok(Success(200, "Profil récupéré avec succès", CurrentUser(user)))
  }

  /** Behind `authenticateToken`, the profile shown is the stored row of the token's user. */
  lemma ProfileIsStoredRow(s: Store, header: Option<string>, verify: string -> Verdict)
    requires AuthenticateToken(s, header, verify).Ok?
    ensures GetProfile(AuthenticateToken(s, header, verify).value).value.payload
         == CurrentUser(ProfileOf(s.rows[verify(BearerToken(header).value).userId]))
  {
  }

  /**
   * `updateProfile`: the `role` key is deleted from the body and the row of
   * the authenticated user (never an id from the body) is updated.
   */
  function UpdateProfile(s: Store, user: Profile, body: Body, now: int): (r: (Store, Reply))
    ensures r.1.Err? ==> r.0 == s
    ensures r.1.Err? && r.1.error.status == 400 <==> Writable(body - {"role"}) == {}
    ensures var data := body - {"role"};
      r.1.Err? && r.1.error.status == 404 <==>
        Writable(data) != {} && IsInt4(user.id) && !Overlong(data) && user.id !in s.rows
    ensures var data := body - {"role"};
      r.1.Err? && r.1.error.status == 500 <==>
        && Writable(data) != {}
        && (|| !IsInt4(user.id) || Overlong(data)
            || (user.id in s.rows && exists k | k in Writable(data) :: Refused(k, data[k])))
    ensures r.1.Err? && r.1.error.status == 500 ==> r.1.error.message == InternalError
    ensures r.1.Err? ==> r.1.error.status in {400, 404, 500}
    ensures r.1.Ok? ==>
      && user.id in s.rows
      && r.0.rows.Keys == s.rows.Keys
      && (forall j | j in s.rows && j != user.id :: r.0.rows[j] == s.rows[j])
      && r.0.rows[user.id].role == s.rows[user.id].role
      && r.1.value.status == 200
      && r.1.value.message == "Profil mis à jour avec succès"
      && r.1.value.payload == UpdatedUser(UpdatedOf(r.0.rows[user.id]))
    ensures r.1.Ok? && Valid(s) ==> Valid(r.0)
  {
    var data := body - {"role"};
    match UpdateUser(s, user.id, data, now)
    case Ok((s', updated)) => (s', Ok(Success(200, "Profil mis à jour avec succès", UpdatedUser(updated))))
    case Err(e) =>
      if Message(e) == "Utilisateur non trouvé" then (s, Err(Failure(404, Message(e))))
      else if Message(e) == "Aucun champ valide à mettre à jour" then (s, Err(Failure(400, Message(e))))
      else (s, Err(Failure(500, InternalError)))
  }

  /** Whatever the body says about `role`, the update comes out the same. */
  lemma RoleKeyIgnored(s: Store, user: Profile, body: Body, v: Value, now: int)
    ensures UpdateProfile(s, user, body["role" := v], now) == UpdateProfile(s, user, body, now)
  {
    assert body["role" := v] - {"role"} == body - {"role"};
  }

  /** Deleting `role` is belt and braces: `updateUser` never writes that column anyway. */
  lemma RoleNotEditable(s: Store, id: int, body: Body, now: int)
    ensures Writable(body - {"role"}) == Writable(body)
    ensures UpdateUser(s, id, body - {"role"}, now) == UpdateUser(s, id, body, now)
  {
    assert "role" !in Editable;
    assert Writable(body - {"role"}) == Writable(body);
    forall k | k in {"firstname", "lastname", "phone", "adresse", "sexe"}
      ensures Written(body - {"role"}, k, "") == Written(body, k, "")
    {
    }
  }

  /** `getUserById`: an unknown id is a 404 with the service's message; any other failure is a 500. */
  function GetUserByIdHandler(s: Store, id: int): (r: Reply)
    ensures r.Ok? <==> IsInt4(id) && id in s.rows
    ensures r.Err? && r.error.status == 404 <==> IsInt4(id) && id !in s.rows
    ensures r.Err? ==> r.error == Failure(404, "Utilisateur non trouvé") || r.error == Failure(500, InternalError)
    ensures !IsInt4(id) ==> r == Err(Failure(500, InternalError))
    ensures r.Ok? ==> r.value == Success(200, "Utilisateur récupéré avec succès", CurrentUser(ProfileOf(s.rows[id])))
  {
    match GetUserById(s, id)
    case Ok(user) => Ok(Success(200, "Utilisateur récupéré avec succès", CurrentUser(user)))
    case Err(e) => Err(Caught(e, "Utilisateur non trouvé", 404, Message(e)))
  }

  /**
   * For an id that passes `userIdValidation`: the row when there is one, 404
   * up to the largest `integer`, and 500 beyond it, where PostgreSQL refuses
   * the parameter.
   */
  lemma ValidatedIdOutcome(s: Store, id: int)
    requires Valid(s)
    requires Validation.UserIdAccepted(id as real)
    ensures GetUserByIdHandler(s, id).Ok? <==> id in s.rows
    ensures GetUserByIdHandler(s, id) == Err(Failure(404, "Utilisateur non trouvé")) <==> id <= MaxSerial && id !in s.rows
    ensures GetUserByIdHandler(s, id) == Err(Failure(500, InternalError)) <==> id > MaxSerial
  {
    Validation.UserIdWhole(id);
  }
}

=== FILE: error_handler.dfy ===
/**
 * The last two handlers of the application: the error handler, which turns
 * anything thrown by a route into a status and a message, and the handler of
 * unknown routes.
 */
module ErrorHandling {
  import opened Wrappers
  import opened Http

  /**
   * The parts of a thrown value the error handler reads: the `code` a
   * PostgreSQL or network error carries, the HTTP `status` some errors carry,
   * whether it is a `SyntaxError` with a `body` property (what the JSON body
   * parser throws), and its `message`, the empty string when it has none.
   */
  datatype ErrorObject = ErrorObject(
    code: Option<string>,
    status: Option<int>,
    isSyntaxError: bool,
    hasBody: bool,
    message: string)

  const DuplicateMessage: string := "Une ressource avec ces données existe déjà"
  const BadReferenceMessage: string := "Référence invalide"
  const InvalidDataMessage: string := "Données invalides"
  const UnavailableMessage: string := "Service temporairement indisponible"
  const BadJsonMessage: string := "Format JSON invalide"
  const ForbiddenMessage: string := "Accès interdit"

  /** The messages the handler writes itself rather than taking from the error. */
  const OwnMessages: set<string> :=
    {DuplicateMessage, BadReferenceMessage, InvalidDataMessage, UnavailableMessage, BadJsonMessage, ForbiddenMessage, InternalError}

  /** The codes the handler recognises, database constraint errors first, then connection failures. */
  const KnownCodes: set<string> := {"23505", "23503", "23514", "ECONNREFUSED", "ENOTFOUND"}

  predicate Recognised(code: Option<string>) {
    code.Some? && code.value in KnownCodes
  }

  /** `err.status || 500`: a missing or zero status is 500. */
  function StatusOr500(status: Option<int>): (r: int)
    ensures r != 0
    ensures status.Some? && status.value != 0 ==> r == status.value
  {
    if status.Some? && status.value != 0 then status.value else 500
  }

  /** `err.message || 'Erreur interne du serveur'`. */
  function MessageOrDefault(message: string): (r: string)
    ensures r != ""
    ensures message != "" ==> r == message
  {
    if message != "" then message else InternalError
  }

  /** `errorHandler`: the first matching case decides; codes take precedence over statuses. */
  function HandleError(err: ErrorObject): (r: Failure)
    ensures r.status != 0
    ensures r.message != ""
    ensures r.message == err.message || r.message in OwnMessages
    ensures Recognised(err.code) ==> r.message in OwnMessages && r.status in {409, 400, 503}
    ensures r.status == 409 <==> err.code == Some("23505") || (!Recognised(err.code) && StatusOr500(err.status) == 409)
    ensures r.status == 503 <==> err.code in {Some("ECONNREFUSED"), Some("ENOTFOUND")} || (!Recognised(err.code) && StatusOr500(err.status) == 503)
    ensures err.code == Some("23505") ==> r == Failure(409, DuplicateMessage)
    ensures err.code == Some("23503") ==> r == Failure(400, BadReferenceMessage)
    ensures err.code == Some("23514") ==> r == Failure(400, InvalidDataMessage)
    ensures err.code in {Some("ECONNREFUSED"), Some("ENOTFOUND")} ==> r == Failure(503, UnavailableMessage)
    ensures !Recognised(err.code) && err.isSyntaxError && err.status == Some(400) && err.hasBody ==> r == Failure(400, BadJsonMessage)
    ensures !Recognised(err.code) && err.status == Some(403) ==> r == Failure(403, ForbiddenMessage)
    ensures !Recognised(err.code) && !(err.isSyntaxError && err.status == Some(400) && err.hasBody) && err.status != Some(403) ==>
      r == Failure(StatusOr500(err.status), MessageOrDefault(err.message))
  {
    if err.code == Some("23505") then Failure(409, DuplicateMessage)
    else if err.code == Some("23503") then Failure(400, BadReferenceMessage)
    else if err.code == Some("23514") then Failure(400, InvalidDataMessage)
    else if err.code == Some("ECONNREFUSED") || err.code == Some("ENOTFOUND") then Failure(503, UnavailableMessage)
    else if err.isSyntaxError && err.status == Some(400) && err.hasBody then Failure(400, BadJsonMessage)
    else if err.status == Some(403) then Failure(403, ForbiddenMessage)
    else Failure(StatusOr500(err.status), MessageOrDefault(err.message))
  }

  /** The reply to a recognised code depends on the code alone, never on the database's own message or status. */
  lemma KnownCodeHidesDetails(e1: ErrorObject, e2: ErrorObject)
    requires e1.code == e2.code && Recognised(e1.code)
    ensures HandleError(e1) == HandleError(e2)
  {
  }

  /** A constraint code wins over a status the error also carries. */
  lemma CodeBeforeStatus(err: ErrorObject)
    requires err.code == Some("23505") && err.status == Some(403)
    ensures HandleError(err) == Failure(409, DuplicateMessage)
  {
  }

  /** A parser error is reported as bad JSON only with status 400 and a body; otherwise it falls through. */
  lemma SyntaxErrorNeedsBody(err: ErrorObject)
    requires err.code.None? && err.isSyntaxError && err.status == Some(400)
    ensures HandleError(err).message == BadJsonMessage <==> err.hasBody || err.message == BadJsonMessage
    ensures HandleError(err).status == 400
  {
  }

  /** An error with no recognised code and an ordinary status is passed through unchanged. */
  lemma OrdinaryErrorPassesThrough(err: ErrorObject, status: int)
    requires err.code.None? && !err.isSyntaxError
    requires err.status == Some(status) && status != 0 && status != 403
    requires err.message != ""
    ensures HandleError(err) == Failure(status, err.message)
  {
  }

  /** What a service's `new Error(message)` becomes if it reaches the handler: a 500 with that message. */
  lemma PlainErrorIs500(message: string)
    ensures HandleError(ErrorObject(None, None, false, false, message)).status == 500
    ensures HandleError(ErrorObject(None, None, false, false, message)).message == MessageOrDefault(message)
  {
  }

  /** `notFound`: a 404 naming the method and the URL. */
  function NotFound(verb: string, url: string): (r: Failure)
    ensures r.status == 404
    ensures |r.message| == 6 + |verb| + 1 + |url| + 12
    ensures r.message[..6] == "Route "
    ensures r.message[6..6 + |verb|] == verb
    ensures r.message[6 + |verb|] == ' '
    ensures r.message[7 + |verb|..7 + |verb| + |url|] == url
    ensures r.message[7 + |verb| + |url|..] == " non trouvée"
  {
    Failure(404, "Route " + verb + " " + url + " non trouvée")
  }

  /** Requests with the same method and different URLs get different messages. */
  lemma NotFoundNamesUrl(verb: string, u1: string, u2: string)
    requires NotFound(verb, u1) == NotFound(verb, u2)
    ensures u1 == u2
  {
    var m := NotFound(verb, u1).message;
    assert |u1| == |u2|;
    assert u1 == m[7 + |verb|..7 + |verb| + |u1|] == u2;
  }
}

=== FILE: registration_flow.dfy ===
/**
 * Registration from end to end: a request body that the registration schema
 * accepts, read as the record `createUser` destructures, then handled by
 * `register`.
 */
module RegistrationFlow {
  import opened Wrappers
  import opened Text
  import opened Http
  import opened Accounts
  import opened Validation
  import opened UserService
  import opened Controllers
  import opened UsernameDerivation

  /** The registration a body describes, when the seven fields are text; `role` is read if present. */
  function RegistrationOf(body: Body): (r: Option<Registration>)
    ensures r.Some? <==> HasRegisterFields(body)
    ensures r.Some? ==>
      && r.value.firstname == body["firstname"].s && r.value.lastname == body["lastname"].s
      && r.value.email == body["email"].s && r.value.password == body["password"].s
      && r.value.phone == body["phone"].s && r.value.sexe == body["sexe"].s && r.value.adresse == body["adresse"].s
  {
    if HasRegisterFields(body) then
      var role := if "role" in body && body["role"].Text? then Some(body["role"].s) else None;
      Some(Registration(body["firstname"].s, body["lastname"].s, body["email"].s, body["password"].s,
                        body["phone"].s, body["sexe"].s, body["adresse"].s, role))
    else None
  }

  /** What the registration schema guarantees about the registration a body describes. */
  lemma ValidatedRegistration(body: Body, allowUnknown: bool, isEmail: string -> bool)
    requires Validate(RegisterSchema, body, allowUnknown, isEmail).None?
    ensures RegistrationOf(body).Some?
    ensures IsPhone(RegistrationOf(body).value.phone)
    ensures 2 <= |Trim(RegistrationOf(body).value.firstname)| <= 50
    ensures SexeNamed(RegistrationOf(body).value.sexe).Some?
  {
    RegisterNeedsAllFields(body, allowUnknown, isEmail);
    RegisterFields(body, isEmail);
    PhoneAccepted(Required, body["phone"].s, isEmail);
    NameAccepted(Required, body["firstname"].s, isEmail);
    SexeAccepted(Required, body["sexe"], isEmail);
  }

  /** The row a successful registration adds holds the submitted fields. */
  lemma RegisteredRow(s: Store, input: Registration, c: Crypto, now: int)
    ensures var (s', r) := Register(s, input, c, now);
      r.Ok? ==>
        && s.nextId in s'.rows && s'.rows[s.nextId].phone == input.phone
        && s'.rows[s.nextId].firstname == input.firstname && s'.rows[s.nextId].email == input.email
  {
  }

  /**
   * On a consistent table, a body that passes the registration schema is
   * stored, with a phone and a first name that satisfy the field rules;
   * refused with 409 because its email is taken; or refused with 500 because
   * the table cannot hold it: the id sequence is spent, or a value is longer
   * than its column. The schema rules out a bad `sexe`, but not a value too
   * long for its column.
   */
  lemma ValidatedRegistrationOutcome(s: Store, body: Body, allowUnknown: bool, isEmail: string -> bool, c: Crypto, now: int)
    requires Valid(s)
    requires Validate(RegisterSchema, body, allowUnknown, isEmail).None?
    ensures RegistrationOf(body).Some?
    ensures var input := RegistrationOf(body).value;
      var (s', r) := Register(s, input, c, now);
      && (r.Err? && r.error.status == 500 <==>
            !CheckEmailExists(s, input.email) && (s.nextId > MaxSerial || !InsertFits(input, ChosenUsername(s, input))))
      && (r.Ok? ==>
            && s.nextId in s'.rows
            && IsPhone(s'.rows[s.nextId].phone)
            && 2 <= |Trim(s'.rows[s.nextId].firstname)| <= 50)
  {
    ValidatedRegistration(body, allowUnknown, isEmail);
    RegisteredRow(s, RegistrationOf(body).value, c, now);
  }

  /** A name without white space keeps its length when normalised. */
  lemma NormalizedLength(name: string)
    requires NoSpace(name)
    ensures |Normalize(name)| == |name|
  {
    assert NoSpace(Lower(name));
  }

  /**
   * The name rules do not keep the username within its column: two names of
   * 50 letters each pass them, but derive a username of 101 characters.
   */
  lemma LongNamesPassSchema(firstname: string, lastname: string, isEmail: string -> bool)
    requires NoSpace(firstname) && NoSpace(lastname)
    requires |firstname| == 50 && |lastname| == 50
    ensures CheckString(NameSchema(Required), Text(firstname), isEmail).None?
    ensures CheckString(NameSchema(Required), Text(lastname), isEmail).None?
    ensures |GenerateUsername(firstname, lastname)| == 101
  {
    NameAccepted(Required, firstname, isEmail);
    NameAccepted(Required, lastname, isEmail);
    NormalizedLength(firstname);
    NormalizedLength(lastname);
  }

  /** A derived username longer than its column makes `register` answer 500 for a new email. */
  lemma LongUsernameIs500(s: Store, input: Registration, c: Crypto, now: int)
    requires |GenerateUsername(input.firstname, input.lastname)| > 100
    requires !CheckEmailExists(s, input.email)
    ensures Register(s, input, c, now).1 == Err(Failure(500, InternalError))
  {
    var base := GenerateUsername(input.firstname, input.lastname);
    assert |Candidate(base, FirstFree(base, Usernames(s)))| >= |base|;
    assert !Fits("username", ChosenUsername(s, input));
  }
}

=== FILE: request.dfy ===
/** The parts of an HTTP exchange the handlers read and write. */
module Http {

  /**
   * One value of a parsed request body. `Undefined` is a key that is present
   * with no value (a JavaScript object can hold one even though JSON cannot),
   * `Null` is JSON `null`; other JSON types are not part of the model.
   */
  datatype Value = Undefined | Null | Text(s: string)

  /** A parsed JSON object: a key occurs at most once, the last occurrence winning. */
  type Body = map<string, Value>

  /** The value of `key` in `body`, `Undefined` when the key is missing, as property access gives it. */
  function Get(body: Body, key: string): (v: Value)
    ensures key !in body ==> v == Undefined
  {
    if key in body then body[key] else Undefined
  }

  /** The generic answer every handler gives to an error it does not recognise. */
  const InternalError: string := "Erreur interne du serveur"

  /** A reply `{ success: false, message }` with its status code. */
  datatype Failure = Failure(status: int, message: string)
}

=== FILE: service_properties.dfy ===
/**
 * Properties that relate several calls of the account service: the reset
 * token life cycle, and the round trips from registration or reset to login.
 */
module ServiceProperties {
  import opened Wrappers
  import opened Text
  import opened Accounts
  import opened UsernameDerivation
  import opened UserService
  import opened Http

  /** The rows whose pending reset carries `token`, expired or not. */
  function Holders(s: Store, token: string): set<int> {
    set i | i in s.rows && s.rows[i].reset.Some? && s.rows[i].reset.value.token == token
  }

  /** A redeemable row holds the token. */
  lemma RedeemableIsHolder(s: Store, token: string, now: int, i: int)
    requires i in s.rows && Redeemable(s.rows[i], token, now)
    ensures i in Holders(s, token)
  {
  }

  /** A token just saved is accepted at any time before the hour is up. */
  lemma SavedTokenValidWithinHour(s: Store, email: string, token: string, saved: int, now: int)
    requires Valid(s)
    requires SaveResetToken(s, email, token, saved).Ok?
    requires now < saved + ResetWindow
    ensures VerifyResetToken(SaveResetToken(s, email, token, saved).value.0, token, now).Ok?
  {
    var s' := SaveResetToken(s, email, token, saved).value.0;
    var i := FindByEmail(s, email).value;
    assert Redeemable(s'.rows[i], token, now);
  }

  /**
   * Once the hour is up (expiry equal to `now` included) the token saved for
   * `email` is refused, unless some other account happens to hold the same token.
   */
  lemma SavedTokenExpires(s: Store, email: string, token: string, saved: int, now: int)
    requires Valid(s)
    requires SaveResetToken(s, email, token, saved).Ok?
    requires forall j | j in Holders(s, token) :: s.rows[j].email == email
    requires now >= saved + ResetWindow
    ensures VerifyResetToken(SaveResetToken(s, email, token, saved).value.0, token, now).Err?
  {
    var s' := SaveResetToken(s, email, token, saved).value.0;
    forall j | j in s'.rows ensures !Redeemable(s'.rows[j], token, now) {
      if s.rows[j].email != email {
        assert s'.rows[j] == s.rows[j];
        assert j !in Holders(s, token);
      }
    }
  }

  /** Saving a new token replaces any token the account held before. */
  lemma SaveOverwritesToken(s: Store, email: string, token: string, saved: int, previous: string)
    requires SaveResetToken(s, email, token, saved).Ok?
    requires previous != token
    ensures Holders(SaveResetToken(s, email, token, saved).value.0, previous)
         == set j | j in Holders(s, previous) && s.rows[j].email != email
  {
  }

  /** A successful reset takes exactly the consumed row out of the token's holders. */
  lemma ResetConsumesToken(s: Store, token: string, password: string, c: Crypto, now: int)
    requires Valid(s)
    requires ResetPassword(s, token, password, c, now).Ok?
    ensures var (s', done) := ResetPassword(s, token, password, c, now).value;
      done.Some? && Holders(s', token) == Holders(s, token) - {done.value.id}
  {
  }

  /** A token held by one account opens one reset: the same token is refused afterwards, at any time. */
  lemma ResetTokenSingleUse(s: Store, token: string, first: string, second: string, c: Crypto, now: int, later: int)
    requires Valid(s)
    requires |Holders(s, token)| <= 1
    requires ResetPassword(s, token, first, c, now).Ok?
    ensures ResetPassword(ResetPassword(s, token, first, c, now).value.0, token, second, c, later).Err?
  {
    var (s', done) := ResetPassword(s, token, first, c, now).value;
    var i := done.value.id;
    ResetConsumesToken(s, token, first, c, now);
    RedeemableIsHolder(s, token, now, i);
    assert Holders(s, token) == {i} by {
      forall j | j in Holders(s, token) ensures j == i {
        if j != i {
          assert {i, j} <= Holders(s, token);
          assert |{i, j}| == 2;
          SubsetSize({i, j}, Holders(s, token));
        }
      }
    }
    forall j | j in s'.rows ensures !Redeemable(s'.rows[j], token, later) {
      if Redeemable(s'.rows[j], token, later) {
        RedeemableIsHolder(s', token, later, j);
      }
    }
  }

  /** After a reset, the new password logs the account in. */
  lemma ResetThenLogin(s: Store, token: string, password: string, c: Crypto, now: int)
    requires Valid(s)
    requires HashVerifies(c)
    requires ResetPassword(s, token, password, c, now).Ok?
    ensures var (s', done) := ResetPassword(s, token, password, c, now).value;
      done.Some? && AuthenticateUser(s', done.value.email, password, c).Ok?
  {
    var (s', done) := ResetPassword(s, token, password, c, now).value;
    var i := done.value.id;
    assert c.compare(password, c.hash(password));
    assert s'.rows[i].email == done.value.email && c.compare(password, s'.rows[i].password);
    AuthenticateSucceedsIff(s', done.value.email, password, c);
  }

  /** After a registration, its email and password log in, and the session is for the new row. */
  lemma RegisterThenLogin(s: Store, input: Registration, c: Crypto, now: int)
    requires Valid(s)
    requires HashVerifies(c)
    requires CreateUser(s, input, c, now).Ok?
    ensures var (s', user) := CreateUser(s, input, c, now).value;
      var login := AuthenticateUser(s', input.email, input.password, c);
      login.Ok? && login.value.user == user && login.value.token == c.sign(user.id, user.role)
  {
    var (s', user) := CreateUser(s, input, c, now).value;
    var id := s.nextId;
    assert c.compare(input.password, c.hash(input.password));
    FindByEmailUnique(s', input.email, id);
  }

  /** The second registration of the same names, with the plain name taken and `_1` free, gets the `_1` suffix. */
  lemma SecondRegistrationGetsSuffix(s: Store, input: Registration, c: Crypto, now: int)
    requires GenerateUsername(input.firstname, input.lastname) in Usernames(s)
    requires GenerateUsername(input.firstname, input.lastname) + "_1" !in Usernames(s)
    requires CreateUser(s, input, c, now).Ok?
    ensures var (s', user) := CreateUser(s, input, c, now).value;
      user.username == GenerateUsername(input.firstname, input.lastname) + "_1"
  {
    var base := GenerateUsername(input.firstname, input.lastname);
    assert NatToString(1) == "1";
    assert Candidate(base, 1) == base + "_1";
    FirstFreeUnique(base, Usernames(s), 1);
  }

  /** A registered account reads back by its id exactly as registration returned it. */
  lemma CreatedUserFound(s: Store, input: Registration, c: Crypto, now: int)
    requires Valid(s)
    requires CreateUser(s, input, c, now).Ok?
    ensures var (s', user) := CreateUser(s, input, c, now).value;
      GetUserById(s', user.id) == Ok(user)
  {
    var (s', user) := CreateUser(s, input, c, now).value;
    assert user.id == s.nextId && IsInt4(s.nextId);
  }

  /** A deleted account is not found any more, and the other accounts still are. */
  lemma DeletedUserGone(s: Store, id: int, other: int)
    requires DeleteUser(s, id).Ok?
    requires other != id
    ensures GetUserById(DeleteUser(s, id).value.0, id) == Err(UserNotFound)
    ensures GetUserById(DeleteUser(s, id).value.0, other) == GetUserById(s, other)
  {
  }

  /** After an update, reading the account by its id shows the updated columns. */
  lemma UpdatedUserFound(s: Store, id: int, body: Body, now: int)
    requires UpdateUser(s, id, body, now).Ok?
    ensures var (s', updated) := UpdateUser(s, id, body, now).value;
      && GetUserById(s', id).Ok?
      && GetUserById(s', id).value.id == updated.id
      && GetUserById(s', id).value.firstname == updated.firstname
      && GetUserById(s', id).value.lastname == updated.lastname
      && GetUserById(s', id).value.email == updated.email
      && GetUserById(s', id).value.username == updated.username
      && GetUserById(s', id).value.phone == updated.phone
      && GetUserById(s', id).value.sexe == updated.sexe
      && GetUserById(s', id).value.adresse == updated.adresse
      && GetUserById(s', id).value.role == updated.role
  {
  }
}

=== FILE: text.dfy ===
/**
 * The JavaScript string primitives the account code relies on: the white-space
 * class shared by the regular-expression escape `\s` and `String.prototype.trim`,
 * ASCII lower-casing, `split(' ')`, and the decimal rendering of a counter inside
 * a template literal.
 */
module Text {

  /** ECMAScript WhiteSpace and LineTerminator code points: what `\s` matches and `trim` strips. */
  predicate IsSpace(c: char) {
    || c == ' ' || c == '\t' || c == '\n' || c == '\U{B}' || c == '\U{C}' || c == '\r'
    || c == '\U{A0}' || c == '\U{1680}' || ('\U{2000}' <= c <= '\U{200A}')
    || c == '\U{2028}' || c == '\U{2029}' || c == '\U{202F}' || c == '\U{205F}'
    || c == '\U{3000}' || c == '\U{FEFF}'
  }

  /** ECMAScript LineTerminator code points, the characters a regular-expression `.` does not match. */
  predicate IsLineTerminator(c: char) {
    c == '\n' || c == '\r' || c == '\U{2028}' || c == '\U{2029}'
  }

  predicate IsAsciiUpper(c: char) { 'A' <= c <= 'Z' }

  predicate IsDigit(c: char) { '0' <= c <= '9' }

  predicate NoSpace(s: string) { forall i | 0 <= i < |s| :: !IsSpace(s[i]) }

  predicate AllSpace(s: string) { forall i | 0 <= i < |s| :: IsSpace(s[i]) }

  predicate AllDigits(s: string) { forall i | 0 <= i < |s| :: IsDigit(s[i]) }

  /** `toLowerCase` on one character, restricted to the ASCII letters. */
  function LowerChar(c: char): (r: char)
    ensures !IsAsciiUpper(r)
    ensures IsSpace(r) <==> IsSpace(c)
    ensures !IsAsciiUpper(c) ==> r == c
  {
    if IsAsciiUpper(c) then (c as int + 32) as char else c
  }

  function Lower(s: string): (r: string)
    ensures |r| == |s|
    ensures forall i | 0 <= i < |s| :: r[i] == LowerChar(s[i])
  {
    seq(|s|, i requires 0 <= i < |s| => LowerChar(s[i]))
  }

  /** `replace(/\s+/g, '')`: every white-space character is dropped, the others kept in order. */
  function RemoveSpaces(s: string): (r: string)
    ensures |r| <= |s|
    ensures NoSpace(r)
    ensures forall c :: c in r <==> c in s && !IsSpace(c)
    ensures NoSpace(s) ==> r == s
  {
    if s == [] then []
    else if IsSpace(s[0]) then RemoveSpaces(s[1..])
    else [s[0]] + RemoveSpaces(s[1..])
  }

  /** Lower-casing works character by character, so it distributes over concatenation. */
  lemma LowerConcat(a: string, b: string)
    ensures Lower(a + b) == Lower(a) + Lower(b)
  {
  }

  /** Dropping white space works character by character, so it distributes over concatenation. */
  lemma {:induction false} RemoveSpacesConcat(a: string, b: string)
    ensures RemoveSpaces(a + b) == RemoveSpaces(a) + RemoveSpaces(b)
    decreases |a|
  {
    if a == [] {
      assert a + b == b;
    } else {
      assert (a + b)[0] == a[0];
      assert (a + b)[1..] == a[1..] + b;
      RemoveSpacesConcat(a[1..], b);
    }
  }

  function LeadingSpaces(s: string): (n: nat)
    ensures n <= |s|
    ensures AllSpace(s[..n])
    ensures n < |s| ==> !IsSpace(s[n])
  {
    if s == [] || !IsSpace(s[0]) then 0
    else
      var n := 1 + LeadingSpaces(s[1..]);
      assert s[..n] == [s[0]] + s[1..][..n - 1];
      n
  }

  function TrailingSpaces(s: string): (n: nat)
    ensures n <= |s|
    ensures AllSpace(s[|s| - n..])
    ensures n < |s| ==> !IsSpace(s[|s| - n - 1])
  {
    if s == [] || !IsSpace(s[|s| - 1]) then 0
    else
      var front := s[..|s| - 1];
      var n := 1 + TrailingSpaces(front);
      assert s[|s| - n..] == front[|front| - (n - 1)..] + [s[|s| - 1]];
      n
  }

  /** `String.prototype.trim`: white space is removed from both ends and nowhere else. */
  function Trim(s: string): (r: string)
    ensures |r| <= |s|
    ensures r == [] || (!IsSpace(r[0]) && !IsSpace(r[|r| - 1]))
    ensures AllSpace(s) <==> r == []
    ensures NoSpace(s) ==> r == s
  {
    var a := LeadingSpaces(s);
    var b := TrailingSpaces(s[a..]);
    TrimEnds(s, a, b);
    LeadingAllSpace(s);
    TrimmedAway(s, a, b);
    TrimNoSpace(s, a, b);
    s[a..][..|s[a..]| - b]
  }

  lemma TrimEnds(s: string, a: nat, b: nat)
    requires a == LeadingSpaces(s) && b == TrailingSpaces(s[a..])
    ensures var r := s[a..][..|s[a..]| - b];
      r == [] || (!IsSpace(r[0]) && !IsSpace(r[|r| - 1]))
  {
    var rest := s[a..];
    var r := rest[..|rest| - b];
    if r != [] {
      assert r[0] == s[a];
      assert r[|r| - 1] == rest[|rest| - b - 1];
    }
  }

  /** A string of white space is leading white space all the way through. */
  lemma LeadingAllSpace(s: string)
    ensures AllSpace(s) ==> LeadingSpaces(s) == |s| && s[LeadingSpaces(s)..] == []
  {
  }

  /** When trimming leaves nothing, the leading white space already covered all of `s`. */
  lemma TrimmedAway(s: string, a: nat, b: nat)
    requires a == LeadingSpaces(s) && b == TrailingSpaces(s[a..])
    ensures s[a..][..|s[a..]| - b] == [] ==> AllSpace(s)
  {
    var rest := s[a..];
    if rest[..|rest| - b] == [] {
      assert rest[|rest| - b..] == rest;
      assert a == |s|;
      assert s[..a] == s;
    }
  }

  lemma TrimNoSpace(s: string, a: nat, b: nat)
    requires a == LeadingSpaces(s) && b == TrailingSpaces(s[a..])
    ensures NoSpace(s) ==> s[a..][..|s[a..]| - b] == s
  {
    if NoSpace(s) {
      assert s == [] || !IsSpace(s[0]);
      assert a == 0;
      assert s[a..] == s;
      assert s == [] || !IsSpace(s[|s| - 1]);
      assert b == 0;
    }
  }

  /** The decimal digit character for `d`. */
  function DigitChar(d: nat): (c: char)
    requires d < 10
    ensures IsDigit(c)
  {
    ('0' as int + d) as char
  }

  function DigitValue(c: char): (d: nat)
    requires IsDigit(c)
    ensures d < 10 && DigitChar(d) == c
  {
    c as int - '0' as int
  }

  /** The decimal rendering of a non-negative integer, without leading zeros, as `${n}` produces it. */
  function NatToString(n: nat): (r: string)
    ensures |r| >= 1
    ensures AllDigits(r)
    ensures r[0] == '0' ==> n == 0
  {
    if n < 10 then [DigitChar(n)]
    else NatToString(n / 10) + [DigitChar(n % 10)]
  }

  /** The decimal rendering of any integer, with a minus sign when it is negative. */
  function IntToString(n: int): (r: string)
    ensures n >= 0 ==> r == NatToString(n)
    ensures n < 0 ==> |r| >= 2 && r[0] == '-' && r[1..] == NatToString(-n)
  {
    if n < 0 then "-" + NatToString(-n) else NatToString(n)
  }

  /** The value of a string of decimal digits. */
  function ParseDecimal(s: string): nat
    requires AllDigits(s)
  {
    if s == [] then 0
    else ParseDecimal(s[..|s| - 1]) * 10 + DigitValue(s[|s| - 1])
  }

  /** Reading back a rendered counter yields the counter. */
  lemma {:induction false} ParseNatToString(n: nat)
    ensures ParseDecimal(NatToString(n)) == n
  {
    if n >= 10 {
      var r := NatToString(n);
      assert r[..|r| - 1] == NatToString(n / 10);
      ParseNatToString(n / 10);
    }
  }

  /** Distinct counters render to distinct strings. */
  lemma NatToStringInjective(a: nat, b: nat)
    ensures NatToString(a) == NatToString(b) ==> a == b
  {
    ParseNatToString(a);
    ParseNatToString(b);
  }

  /** The first index of `c` in `s`, or `|s|` when `c` does not occur. */
  function IndexOf(s: string, c: char): (k: nat)
    ensures k <= |s|
    ensures k < |s| ==> s[k] == c
    ensures c !in s[..k]
  {
    if s == [] then 0
    else if s[0] == c then 0
    else
      var k := 1 + IndexOf(s[1..], c);
      assert s[..k] == [s[0]] + s[1..][..k - 1];
      k
  }

  /** `String.prototype.split` with a one-character separator. */
  function Split(s: string, sep: char): (parts: seq<string>)
    ensures |parts| >= 1
    ensures forall i | 0 <= i < |parts| :: sep !in parts[i]
    decreases |s|
  {
    var k := IndexOf(s, sep);
    if k == |s| then [s]
    else [s[..k]] + Split(s[k + 1..], sep)
  }

  lemma IndexOfAbsent(s: string, c: char)
    requires c !in s
    ensures IndexOf(s, c) == |s|
  {
  }

  lemma IndexOfAfter(p: string, c: char, rest: string)
    requires c !in p
    ensures IndexOf(p + [c] + rest, c) == |p|
  {
    var s := p + [c] + rest;
    assert s[|p|] == c;
    assert s[..|p|] == p;
  }

  /** Splitting at the first separator: the piece before it, then the split of the rest. */
  lemma SplitStep(p: string, sep: char, rest: string)
    requires sep !in p
    ensures Split(p + [sep] + rest, sep) == [p] + Split(rest, sep)
  {
    var s := p + [sep] + rest;
    IndexOfAfter(p, sep, rest);
    assert s[..|p|] == p;
    assert s[|p| + 1..] == rest;
  }

  /** A string without the separator is a single piece. */
  lemma SplitNone(s: string, sep: char)
    requires sep !in s
    ensures Split(s, sep) == [s]
  {
    IndexOfAbsent(s, sep);
  }
}

=== FILE: user_service.dfy ===
/**
 * The account service: registration, authentication, the password-reset
 * token life cycle and the profile operations, each a transition of the
 * `users` table. Hashing, signing, the random reset token, the clock and the
 * outcome of sending a mail are parameters.
 */
module UserService {
  import opened Wrappers
  import opened Text
  import opened Http
  import opened Accounts
  import opened UsernameDerivation

  /** The errors the service throws; the controllers tell them apart by their message. */
  datatype ServiceError =
    | InvalidCredentials
    | EmailNotFound
    | InvalidOrExpiredToken
    | UserNotFound
    | NoValidFields
    | MailFailure
      /** An error raised by PostgreSQL, with its SQLSTATE code and message text. */
    | Database(code: string, text: string)

  function Message(e: ServiceError): string {
    match e
    case InvalidCredentials => "Email ou mot de passe incorrect"
    case EmailNotFound => "Email non trouvé"
    case InvalidOrExpiredToken => "Token invalide ou expiré"
    case UserNotFound => "Utilisateur non trouvé"
    case NoValidFields => "Aucun champ valide à mettre à jour"
    case MailFailure => "Erreur lors de l'envoi de l'email"
    case Database(_, text) => text
  }

  /** The service's own errors carry pairwise distinct messages, so matching on the message tells them apart. */
  lemma MessagesDistinct(e1: ServiceError, e2: ServiceError)
    requires !e1.Database? && !e2.Database?
    requires Message(e1) == Message(e2)
    ensures e1 == e2
  {
  }

  /** SQLSTATE codes of the constraints the `users` table enforces. */
  const UniqueViolation: string := "23505"
  const CheckViolation: string := "23514"
  const NotNullViolation: string := "23502"
  /** SQLSTATE codes of the data errors: a value too long for its column, a number outside `integer`, a spent sequence. */
  const StringTooLong: string := "22001"
  const OutOfRange: string := "22003"
  const SequenceExhausted: string := "2200H"

  /** The error PostgreSQL raises when a parameter compared with `id` is not an `integer`. */
  function IdOutOfRange(id: int): ServiceError {
    Database(OutOfRange, "value \"" + IntToString(id) + "\" is out of range for type integer")
  }

  /** bcrypt's `hash` and `compare` and the JWT signer, none of which the model looks inside. */
  datatype Crypto = Crypto(
    hash: string -> string,
    compare: (string, string) -> bool,
    sign: (int, Role) -> string)

  /** The one property of bcrypt the model relies on: a password matches its own digest. */
  ghost predicate HashVerifies(c: Crypto) {
    forall p :: c.compare(p, c.hash(p))
  }

  /** A reset token stays valid for one hour, in milliseconds. */
  const ResetWindow: int := 3600000

  // ---------------------------------------------------------------- registration

  /** `checkEmailExists`: some row carries the email. */
  function CheckEmailExists(s: Store, email: string): (r: bool)
    ensures r <==> exists i | i in s.rows :: s.rows[i].email == email
    ensures Valid(s) ==> (r <==> FindByEmail(s, email).Some?)
  {
    email in Emails(s)
  }

  /** `checkUsernameExists`: some row carries the username. */
  function CheckUsernameExists(s: Store, username: string): (r: bool)
    ensures r <==> exists i | i in s.rows :: s.rows[i].username == username
  {
    username in Usernames(s)
  }

  /** The body `createUser` reads; `role` is optional. */
  datatype Registration = Registration(
    firstname: string,
    lastname: string,
    email: string,
    password: string,
    phone: string,
    sexe: string,
    adresse: string,
    role: Option<string>)

  /**
   * The role a registration stores: a supplied role is kept when it
   * lower-cases to an allowed name, except that `admin` is downgraded;
   * anything else becomes `patient`.
   */
  function NormalizeRole(role: Option<string>): (r: Role)
    ensures r != Admin
    ensures r == Docteur <==> role.Some? && Lower(role.value) == "docteur"
    ensures r != Docteur ==> r == Patient
  {
    match role
    case None => Patient
    case Some(name) =>
      var named := RoleNamed(Lower(name));
      var chosen := if name != "" && named.Some? then named.value else Patient;
      if chosen == Admin then Patient else chosen
  }

  /** The username `createUser` settles on: the first candidate not yet taken. */
  function ChosenUsername(s: Store, input: Registration): string {
    var base := GenerateUsername(input.firstname, input.lastname);
    Candidate(base, FirstFree(base, Usernames(s)))
  }

  /**
   * The suffix loop of `createUser` as the queries see it: every candidate
   * before the chosen one is reported taken by `checkUsernameExists`, and the
   * chosen one is reported free.
   */
  lemma ChosenUsernameChecked(s: Store, input: Registration)
    ensures var base := GenerateUsername(input.firstname, input.lastname);
      forall k | 0 <= k < FirstFree(base, Usernames(s)) :: CheckUsernameExists(s, Candidate(base, k))
    ensures !CheckUsernameExists(s, ChosenUsername(s, input))
  {
  }

  /** Whether every value of the new row fits its VARCHAR column. */
  predicate InsertFits(input: Registration, username: string) {
    && Fits("firstname", input.firstname) && Fits("lastname", input.lastname)
    && Fits("email", input.email) && Fits("username", username)
    && Fits("phone", input.phone) && Fits("sexe", input.sexe)
  }

  /**
   * The INSERT once the id is drawn and every value fits its column: the
   * CHECK on `sexe` comes first, then the UNIQUE indexes on `email`,
   * `username` and the id.
   */
  function InsertRow(s: Store, input: Registration, username: string, c: Crypto, now: int): (r: Result<(Store, Profile), ServiceError>)
    ensures r.Err? <==>
      SexeNamed(input.sexe).None? || input.email in Emails(s) || username in Usernames(s) || s.nextId in s.rows
    ensures r.Err? && SexeNamed(input.sexe).None? ==> r.error == Database(CheckViolation, "new row violates check constraint \"users_sexe_check\"")
    ensures r.Err? && SexeNamed(input.sexe).Some? ==> r.error == Database(UniqueViolation, "duplicate key value violates unique constraint")
    ensures r.Ok? ==>
      var (s', user) := r.value;
      var id := s.nextId;
      && id !in s.rows
      && s'.nextId == s.nextId + 1
      && id in s'.rows
      && s'.rows == s.rows[id := s'.rows[id]]
      && var a := s'.rows[id];
      && a.id == id
      && user == ProfileOf(a)
      && a.firstname == input.firstname && a.lastname == input.lastname
      && a.email == input.email && a.phone == input.phone && a.adresse == input.adresse
      && SexeName(a.sexe) == input.sexe
      && a.role == NormalizeRole(input.role)
      && a.password == c.hash(input.password)
      && a.username == username
      && a.reset.None?
      && a.createdAt == now && a.updatedAt == now
    ensures r.Ok? && Valid(s) && s.nextId <= MaxSerial ==> Valid(r.value.0)
  {
    match SexeNamed(input.sexe)
    case None => Err(Database(CheckViolation, "new row violates check constraint \"users_sexe_check\""))
    case Some(sexe) =>
      if input.email in Emails(s) || username in Usernames(s) || s.nextId in s.rows then
        Err(Database(UniqueViolation, "duplicate key value violates unique constraint"))
      else
        var a := Account(s.nextId, input.firstname, input.lastname, input.email, username,
                         c.hash(input.password), input.phone, sexe, NormalizeRole(input.role), input.adresse, None, now, now);
        Ok((Store(s.rows[s.nextId := a], s.nextId + 1), ProfileOf(a)))
  }

  /**
   * `createUser`: the derived username, the normalised role and the hashed
   * password go into a new row. PostgreSQL checks the column lengths while it
   * plans the statement, with the bound values folded in as constants; it
   * draws the id from the sequence when the statement runs, then checks the
   * CHECK on `sexe`, and the UNIQUE indexes last.
   */
  function CreateUser(s: Store, input: Registration, c: Crypto, now: int): (r: Result<(Store, Profile), ServiceError>)
    ensures r.Err? <==>
      || s.nextId > MaxSerial || !InsertFits(input, ChosenUsername(s, input))
      || SexeNamed(input.sexe).None? || input.email in Emails(s) || s.nextId in s.rows
    ensures r.Err? ==> r.error.Database?
    ensures !InsertFits(input, ChosenUsername(s, input)) ==> r.Err? && r.error.code == StringTooLong
    ensures InsertFits(input, ChosenUsername(s, input)) && s.nextId > MaxSerial ==>
      r.Err? && r.error.code == SequenceExhausted
    ensures s.nextId <= MaxSerial && InsertFits(input, ChosenUsername(s, input)) && SexeNamed(input.sexe).None? ==>
      r.Err? && r.error.code == CheckViolation
    ensures r.Err? && s.nextId <= MaxSerial && InsertFits(input, ChosenUsername(s, input)) && SexeNamed(input.sexe).Some? ==>
      r.error.code == UniqueViolation
    ensures r.Ok? ==>
      var (s', user) := r.value;
      var id := s.nextId;
      && id !in s.rows
      && s'.nextId == s.nextId + 1
      && id in s'.rows
      && s'.rows == s.rows[id := s'.rows[id]]
      && var a := s'.rows[id];
      && a.id == id
      && user == ProfileOf(a)
      && a.firstname == input.firstname && a.lastname == input.lastname
      && a.email == input.email && a.phone == input.phone && a.adresse == input.adresse
      && SexeName(a.sexe) == input.sexe
      && a.role == NormalizeRole(input.role)
      && a.password == c.hash(input.password)
      && a.username !in Usernames(s)
      && a.username == Candidate(GenerateUsername(input.firstname, input.lastname), FirstFree(GenerateUsername(input.firstname, input.lastname), Usernames(s)))
      && a.reset.None?
      && a.createdAt == now && a.updatedAt == now
    ensures r.Ok? && Valid(s) ==> Valid(r.value.0)
  {
    var username := ChosenUsername(s, input);
    if !InsertFits(input, username) then
      Err(Database(StringTooLong, "value too long for type character varying"))
    else if s.nextId > MaxSerial then
      Err(Database(SequenceExhausted, "nextval: reached maximum value of sequence \"users_id_seq\" (2147483647)"))
    else
      InsertRow(s, input, username, c, now)
  }

  // ---------------------------------------------------------------- authentication

  /** What a successful login returns: the row without its password, plus a bearer token. */
  datatype Session = Session(user: Profile, token: string)

  /** `authenticateUser`: an unknown email and a wrong password fail with the same error. */
  function AuthenticateUser(s: Store, email: string, password: string, c: Crypto): (r: Result<Session, ServiceError>)
    ensures r.Err? ==> r.error == InvalidCredentials
    ensures r.Ok? ==> r.value.user.email == email
    ensures r.Ok? ==> r.value.token == c.sign(r.value.user.id, r.value.user.role)
    ensures r.Ok? ==> exists i | i in s.rows ::
      ProfileOf(s.rows[i]) == r.value.user && c.compare(password, s.rows[i].password)
  {
    match FindByEmail(s, email)
    case None => Err(InvalidCredentials)
    case Some(i) =>
      var a := s.rows[i];
      if !c.compare(password, a.password) then Err(InvalidCredentials)
      else Ok(Session(ProfileOf(a), c.sign(a.id, a.role)))
  }

  /** With unique emails, login succeeds exactly when the row for that email accepts the password. */
  lemma AuthenticateSucceedsIff(s: Store, email: string, password: string, c: Crypto)
    requires Valid(s)
    ensures AuthenticateUser(s, email, password, c).Ok?
        <==> exists i | i in s.rows :: s.rows[i].email == email && c.compare(password, s.rows[i].password)
  {
    if i :| i in s.rows && s.rows[i].email == email && c.compare(password, s.rows[i].password) {
      FindByEmailUnique(s, email, i);
    }
  }

  /** The two ways of failing cannot be told apart: both give the same message. */
  lemma AuthenticateFailuresIdentical(s: Store, email: string, password: string, c: Crypto)
    requires Valid(s)
    requires AuthenticateUser(s, email, password, c).Err?
    ensures Message(AuthenticateUser(s, email, password, c).error) == "Email ou mot de passe incorrect"
    ensures email !in Emails(s) || exists i | i in s.rows :: s.rows[i].email == email && !c.compare(password, s.rows[i].password)
  {
    if email in Emails(s) {
      var i :| i in s.rows && s.rows[i].email == email;
      FindByEmailUnique(s, email, i);
    }
  }

  // ---------------------------------------------------------------- password reset

  /** The columns `saveResetToken` returns. */
  datatype ResetTarget = ResetTarget(id: int, firstname: string, lastname: string, email: string, role: Role)

  /** `saveResetToken`: every row with the email gets the token and an expiry one hour from `now`. */
  function SaveResetToken(s: Store, email: string, token: string, now: int): (r: Result<(Store, ResetTarget), ServiceError>)
    ensures r.Err? <==> FindByEmail(s, email).None?
    ensures Valid(s) ==> (r.Err? <==> email !in Emails(s))
    ensures r.Err? ==> r.error == EmailNotFound
    ensures r.Ok? ==> r.value.1.email == email
    ensures r.Ok? ==>
      var s' := r.value.0;
      && s'.nextId == s.nextId
      && s'.rows.Keys == s.rows.Keys
      && (forall j | j in s.rows && s.rows[j].email != email :: s'.rows[j] == s.rows[j])
      && (forall j | j in s.rows && s.rows[j].email == email ::
            s'.rows[j] == s.rows[j].(reset := Some(ResetTicket(token, now + ResetWindow))))
    ensures r.Ok? && Valid(s) ==> Valid(r.value.0)
  {
    match FindByEmail(s, email)
    case None => Err(EmailNotFound)
    case Some(i) =>
      var ticket := ResetTicket(token, now + ResetWindow);
      var rows := map j | j in s.rows :: if s.rows[j].email == email then s.rows[j].(reset := Some(ticket)) else s.rows[j];
      var a := s.rows[i];
      Ok((Store(rows, s.nextId), ResetTarget(a.id, a.firstname, a.lastname, a.email, a.role)))
  }

  /** A row whose pending reset carries `token` and has not yet expired at `now` (strictly later expiry). */
  predicate Redeemable(a: Account, token: string, now: int) {
    a.reset.Some? && a.reset.value.token == token && a.reset.value.expires > now
  }

  /** The columns `verifyResetToken` returns. */
  datatype TokenOwner = TokenOwner(id: int, firstname: string, lastname: string, email: string, expires: int)

  /** `verifyResetToken`: the first row holding the token with an expiry still in the future. */
  function VerifyResetToken(s: Store, token: string, now: int): (r: Result<TokenOwner, ServiceError>)
    ensures r.Err? ==> r.error == InvalidOrExpiredToken
    ensures Valid(s) ==> (r.Ok? <==> exists i | i in s.rows :: Redeemable(s.rows[i], token, now))
    ensures r.Ok? ==> r.value.expires > now
    ensures Valid(s) && r.Ok? ==>
      var i := r.value.id;
      && i in s.rows
      && Redeemable(s.rows[i], token, now)
      && r.value.email == s.rows[i].email && r.value.firstname == s.rows[i].firstname
  {
    match Find(s, (a: Account) => Redeemable(a, token, now))
    case None => Err(InvalidOrExpiredToken)
    case Some(i) =>
      var a := s.rows[i];
      Ok(TokenOwner(a.id, a.firstname, a.lastname, a.email, a.reset.value.expires))
  }

  /** The columns `resetPassword` returns. */
  datatype ResetDone = ResetDone(id: int, firstname: string, lastname: string, email: string, username: string)

  /**
   * `resetPassword`: the token is checked again, then the row's password is
   * replaced and both reset columns cleared in one update. If the row vanished
   * in between, the update returns nothing, which the model keeps as `None`.
   */
  function ResetPassword(s: Store, token: string, newPassword: string, c: Crypto, now: int): (r: Result<(Store, Option<ResetDone>), ServiceError>)
    ensures r.Err? <==> VerifyResetToken(s, token, now).Err?
    ensures r.Err? ==> r.error == InvalidOrExpiredToken
    ensures r.Ok? && r.value.1.None? ==> r.value.0 == s
    ensures Valid(s) && r.Ok? ==> r.value.1.Some?
    ensures Valid(s) && r.Ok? && r.value.1.Some? ==>
      var i := r.value.1.value.id;
      && i in s.rows
      && r.value.0 == Store(s.rows[i := s.rows[i].(password := c.hash(newPassword), reset := None)], s.nextId)
    ensures Valid(s) && r.Ok? ==> Redeemable(s.rows[r.value.1.value.id], token, now)
    ensures r.Ok? && Valid(s) ==> Valid(r.value.0)
  {
    match VerifyResetToken(s, token, now)
    case Err(e) => Err(e)
    case Ok(owner) =>
      var digest := c.hash(newPassword);
      if owner.id in s.rows then
        var a := s.rows[owner.id].(password := digest, reset := None);
        Ok((Store(s.rows[owner.id := a], s.nextId), Some(ResetDone(a.id, a.firstname, a.lastname, a.email, a.username))))
      else
        Ok((s, None))
  }

  /** `requestPasswordReset`: the token is stored first; a failed mail then fails the call but the token stays stored. */
  function RequestPasswordReset(s: Store, email: string, token: string, now: int, mailSent: bool): (r: (Store, Result<string, ServiceError>))
    ensures SaveResetToken(s, email, token, now).Err? ==> r.0 == s && r.1 == Err(EmailNotFound)
    ensures SaveResetToken(s, email, token, now).Ok? ==> r.0 == SaveResetToken(s, email, token, now).value.0
    ensures r.1.Ok? <==> SaveResetToken(s, email, token, now).Ok? && mailSent
    ensures SaveResetToken(s, email, token, now).Ok? && !mailSent ==> r.1 == Err(MailFailure)
    ensures r.1.Ok? ==> r.1.value == "Email de réinitialisation envoyé"
  {
    match SaveResetToken(s, email, token, now)
    case Err(e) => (s, Err(e))
    case Ok((s', _)) =>
      if mailSent then (s', Ok("Email de réinitialisation envoyé"))
      else (s', Err(MailFailure))
  }

  // ---------------------------------------------------------------- profile

  /**
   * `getUserById`: a read that leaves the table as it is. An id outside
   * `integer` is refused by PostgreSQL before any row is looked at.
   */
  function GetUserById(s: Store, id: int): (r: Result<Profile, ServiceError>)
    ensures r.Ok? <==> IsInt4(id) && id in s.rows
    ensures Valid(s) ==> (r.Ok? <==> id in s.rows)
    ensures !IsInt4(id) ==> r.Err? && r.error.Database? && r.error.code == OutOfRange
    ensures IsInt4(id) && id !in s.rows ==> r == Err(UserNotFound)
    ensures r.Ok? ==> r.value == ProfileOf(s.rows[id])
  {
    if !IsInt4(id) then Err(IdOutOfRange(id))
    else if id in s.rows then Ok(ProfileOf(s.rows[id]))
    else Err(UserNotFound)
  }

  /** The columns a profile update may write. */
  const Editable: set<string> := {"firstname", "lastname", "phone", "sexe", "adresse"}

  /** The keys of the body that `updateUser` turns into `SET` clauses: allowed and not undefined. */
  function Writable(body: Body): (keys: set<string>)
    ensures keys <= Editable
    ensures forall k :: k in keys <==> k in body && k in Editable && body[k] != Undefined
  {
    set k | k in body && k in Editable && body[k] != Undefined
  }

  /** The new value of column `key`: the body's text when the key is written, the old value otherwise. */
  function Written(body: Body, key: string, current: string): string {
    if key in Writable(body) && body[key].Text? then body[key].s else current
  }

  /** The columns `updateUser` returns. */
  datatype UpdatedProfile = UpdatedProfile(
    id: int,
    firstname: string,
    lastname: string,
    email: string,
    username: string,
    phone: string,
    sexe: Sexe,
    adresse: string,
    role: Role,
    updatedAt: int)

  function UpdatedOf(a: Account): UpdatedProfile {
    UpdatedProfile(a.id, a.firstname, a.lastname, a.email, a.username, a.phone, a.sexe, a.adresse, a.role, a.updatedAt)
  }

  /**
   * Whether the table refuses `v` as the new value of column `k`: NULL in a
   * NOT NULL column, text longer than the column, or a `sexe` outside its CHECK.
   */
  predicate Refused(k: string, v: Value) {
    v == Null || (v.Text? && (!Fits(k, v.s) || (k == "sexe" && SexeNamed(v.s).None?)))
  }

  /** Whether some written value is longer than its VARCHAR column. */
  predicate Overlong(body: Body) {
    exists k | k in Writable(body) :: body[k].Text? && !Fits(k, body[k].s)
  }

  /**
   * `updateUser`: only the allowed columns present in the body are written and
   * `updated_at` is bumped. An empty selection fails before the table is
   * read. An id outside `integer` is refused when the parameters are bound,
   * and an over-long value when the statement is planned, both before any
   * row is matched. Past those, an id without a row matches nothing, so no
   * other constraint is checked; otherwise a value the table refuses fails
   * the update: NOT NULL first, then the CHECK on `sexe`.
   */
  function UpdateUser(s: Store, id: int, body: Body, now: int): (r: Result<(Store, UpdatedProfile), ServiceError>)
    ensures (r.Err? && r.error == NoValidFields) <==> Writable(body) == {}
    ensures Writable(body) != {} && !IsInt4(id) ==> r == Err(IdOutOfRange(id))
    ensures Writable(body) != {} && IsInt4(id) && Overlong(body) ==>
      r == Err(Database(StringTooLong, "value too long for type character varying"))
    ensures (r.Err? && r.error == UserNotFound) <==>
      Writable(body) != {} && IsInt4(id) && !Overlong(body) && id !in s.rows
    ensures Writable(body) != {} && IsInt4(id) && id in s.rows ==>
      (r.Err? <==> exists k | k in Writable(body) :: Refused(k, body[k]))
    ensures r.Err? && r.error.Database? && r.error.code != OutOfRange ==>
      exists k | k in Writable(body) :: Refused(k, body[k])
    ensures r.Ok? ==>
      var s' := r.value.0;
      && id in s.rows
      && s'.nextId == s.nextId
      && s'.rows.Keys == s.rows.Keys
      && (forall j | j in s.rows && j != id :: s'.rows[j] == s.rows[j])
      && var (a, b) := (s.rows[id], s'.rows[id]);
      && b.id == a.id && b.email == a.email && b.username == a.username && b.password == a.password
      && b.role == a.role && b.reset == a.reset && b.createdAt == a.createdAt
      && b.updatedAt == now
      && b.firstname == Written(body, "firstname", a.firstname)
      && b.lastname == Written(body, "lastname", a.lastname)
      && b.phone == Written(body, "phone", a.phone)
      && b.adresse == Written(body, "adresse", a.adresse)
      && SexeName(b.sexe) == Written(body, "sexe", SexeName(a.sexe))
      && r.value.1 == UpdatedOf(b)
    ensures r.Ok? && Valid(s) ==> Valid(r.value.0)
  {
    var fields := Writable(body);
    if fields == {} then Err(NoValidFields)
    else if !IsInt4(id) then Err(IdOutOfRange(id))
    else if Overlong(body) then
      Err(Database(StringTooLong, "value too long for type character varying"))
    else if id !in s.rows then Err(UserNotFound)
    else if exists k | k in fields :: body[k] == Null then
      Err(Database(NotNullViolation, "null value violates not-null constraint"))
    else
      var sexe := if "sexe" in fields then SexeNamed(body["sexe"].s) else Some(s.rows[id].sexe);
      if sexe.None? then
        Err(Database(CheckViolation, "new row violates check constraint \"users_sexe_check\""))
      else
        var a := s.rows[id];
        var b := a.(
          firstname := Written(body, "firstname", a.firstname),
          lastname := Written(body, "lastname", a.lastname),
          phone := Written(body, "phone", a.phone),
          sexe := sexe.value,
          adresse := Written(body, "adresse", a.adresse),
          updatedAt := now);
        Ok((Store(s.rows[id := b], s.nextId), UpdatedOf(b)))
  }

  /** `deleteUser`: exactly the row with that id disappears. */
  function DeleteUser(s: Store, id: int): (r: Result<(Store, int), ServiceError>)
    ensures r.Ok? <==> IsInt4(id) && id in s.rows
    ensures Valid(s) ==> (r.Ok? <==> id in s.rows)
    ensures !IsInt4(id) ==> r == Err(IdOutOfRange(id))
    ensures IsInt4(id) && id !in s.rows ==> r == Err(UserNotFound)
    ensures r.Ok? ==> r.value.0.rows == s.rows - {id} && r.value.0.nextId == s.nextId && r.value.1 == id
    ensures r.Ok? && Valid(s) ==> Valid(r.value.0)
  {
    if !IsInt4(id) then Err(IdOutOfRange(id))
    else if id in s.rows then Ok((Store(s.rows - {id}, s.nextId), id))
    else Err(UserNotFound)
  }
}

=== FILE: usernames.dfy ===
/**
 * Username derivation at registration: the names are normalised and joined
 * by `_`, and a taken name is retried with the suffixes `_1`, `_2`, ... until
 * one is free.
 */
module UsernameDerivation {
  import opened Text

  /** A name lower-cased and stripped of every white-space character. */
  function Normalize(name: string): (r: string)
    ensures NoSpace(r)
    ensures forall i | 0 <= i < |r| :: !IsAsciiUpper(r[i])
  {
    RemoveSpaces(Lower(name))
  }

  /** A single character: white space disappears, anything else is lower-cased. */
  lemma NormalizeChar(c: char)
    ensures Normalize([c]) == if IsSpace(c) then [] else [LowerChar(c)]
  {
    assert Lower([c]) == [LowerChar(c)];
    assert [LowerChar(c)][1..] == [];
  }

  /**
   * Normalisation works character by character: with `NormalizeChar`, this
   * fixes the result of every name, each character kept lower-cased and in
   * order unless it is white space.
   */
  lemma NormalizeConcat(a: string, b: string)
    ensures Normalize(a + b) == Normalize(a) + Normalize(b)
  {
    LowerConcat(a, b);
    RemoveSpacesConcat(Lower(a), Lower(b));
  }

  /** Normalising twice is normalising once. */
  lemma NormalizeIdempotent(name: string)
    ensures Normalize(Normalize(name)) == Normalize(name)
  {
    var n := Normalize(name);
    assert Lower(n) == n;
  }

  /** `generateUsername`: the two normalised names joined by a single underscore. */
  function GenerateUsername(firstname: string, lastname: string): (r: string)
    ensures NoSpace(r)
    ensures forall i | 0 <= i < |r| :: !IsAsciiUpper(r[i])
    ensures |r| == |Normalize(firstname)| + 1 + |Normalize(lastname)|
    ensures r[..|Normalize(firstname)|] == Normalize(firstname)
    ensures r[|Normalize(firstname)|] == '_'
    ensures r[|Normalize(firstname)| + 1..] == Normalize(lastname)
  {
    Normalize(firstname) + "_" + Normalize(lastname)
  }

  /** The names are normalised, so re-deriving from normalised names changes nothing. */
  lemma GenerateUsernameNormalized(firstname: string, lastname: string)
    ensures GenerateUsername(Normalize(firstname), Normalize(lastname)) == GenerateUsername(firstname, lastname)
  {
    NormalizeIdempotent(firstname);
    NormalizeIdempotent(lastname);
  }

  /** For names without white space, derivation is plain lower-casing around the underscore. */
  lemma GenerateUsernameWithoutSpaces(firstname: string, lastname: string)
    requires NoSpace(firstname) && NoSpace(lastname)
    ensures GenerateUsername(firstname, lastname) == Lower(firstname) + "_" + Lower(lastname)
  {
    assert NoSpace(Lower(firstname));
    assert NoSpace(Lower(lastname));
  }

  /** The k-th name tried: `base` itself first, then `base_k`. */
  function Candidate(base: string, k: nat): (r: string)
    ensures k == 0 ==> r == base
    ensures k > 0 ==> |r| > |base| && r[..|base|] == base && r[|base|] == '_'
  {
    if k == 0 then base else base + "_" + NatToString(k)
  }

  /** The names tried are pairwise distinct, so each taken name is met at most once. */
  lemma CandidatesDistinct(base: string, j: nat, k: nat)
    requires j != k
    ensures Candidate(base, j) != Candidate(base, k)
  {
    if j > 0 && k > 0 && Candidate(base, j) == Candidate(base, k) {
      var n := |base| + 1;
      assert Candidate(base, j)[n..] == NatToString(j);
      assert Candidate(base, k)[n..] == NatToString(k);
      NatToStringInjective(j, k);
    }
  }

  /** The first `n` names tried. */
  function Tried(base: string, n: nat): set<string> {
    set k | 0 <= k < n :: Candidate(base, k)
  }

  lemma {:induction false} TriedSize(base: string, n: nat)
    ensures |Tried(base, n)| == n
  {
    if n > 0 {
      TriedSize(base, n - 1);
      assert Tried(base, n) == Tried(base, n - 1) + {Candidate(base, n - 1)};
      forall k | 0 <= k < n - 1 ensures Candidate(base, k) != Candidate(base, n - 1) {
        CandidatesDistinct(base, k, n - 1);
      }
    }
  }

  lemma {:induction false} SubsetSize<T>(a: set<T>, b: set<T>)
    requires a <= b
    ensures |a| <= |b|
    decreases |a|
  {
    if a != {} {
      var x :| x in a;
      SubsetSize(a - {x}, b - {x});
    }
  }

  /** Pigeonhole: if the first `n` names are all taken, at least `n` names are taken. */
  lemma TakenBound(base: string, taken: set<string>, n: nat)
    requires forall j | 0 <= j < n :: Candidate(base, j) in taken
    ensures n <= |taken|
  {
    TriedSize(base, n);
    SubsetSize(Tried(base, n), taken);
  }

  /** The index of the first free name, searching upwards from `k`. */
  function FreeFrom(base: string, taken: set<string>, k: nat): (r: nat)
    requires forall j | 0 <= j < k :: Candidate(base, j) in taken
    ensures k <= r
    ensures Candidate(base, r) !in taken
    ensures forall j | 0 <= j < r :: Candidate(base, j) in taken
    decreases |taken| - k
  {
    if Candidate(base, k) !in taken then k
    else
      TakenBound(base, taken, k + 1);
      FreeFrom(base, taken, k + 1)
  }

  /** The index of the name registration settles on: the least one not taken. */
  function FirstFree(base: string, taken: set<string>): (r: nat)
    ensures Candidate(base, r) !in taken
    ensures forall j | 0 <= j < r :: Candidate(base, j) in taken
    ensures r <= |taken|
  {
    var r := FreeFrom(base, taken, 0);
    TakenBound(base, taken, r);
    r
  }

  /** Only one index is free with every lower index taken. */
  lemma FirstFreeUnique(base: string, taken: set<string>, k: nat)
    requires Candidate(base, k) !in taken
    requires forall j | 0 <= j < k :: Candidate(base, j) in taken
    ensures k == FirstFree(base, taken)
  {
  }

  /**
   * The suffix loop of `createUser`: try `base`, then `base_1`, `base_2`, ...
   * while the name is taken.
   */
  method PickUsername(base: string, taken: set<string>) returns (username: string)
    ensures username !in taken
    ensures username == Candidate(base, FirstFree(base, taken))
  {
    username := base;
    var counter: nat := 1;
    while username in taken
      invariant counter >= 1
      invariant username == Candidate(base, counter - 1)
      invariant forall j | 0 <= j < counter - 1 :: Candidate(base, j) in taken
      invariant counter - 1 <= |taken|
      decreases |taken| - (counter - 1)
    {
      TakenBound(base, taken, counter);
      username := base + "_" + NatToString(counter);
      counter := counter + 1;
    }
    FirstFreeUnique(base, taken, counter - 1);
  }
}

=== FILE: validation.dfy ===
/**
 * The request schemas of the account routes, written as Joi writes them: a
 * list of string rules per field, evaluated the way Joi evaluates them in
 * its default `convert` mode. Each field rule is then characterised by a
 * direct predicate on the submitted text.
 */
module Validation {
  import opened Wrappers
  import opened Text
  import opened Http

  // ---------------------------------------------------------------- regular expressions

  /** A bracketed character class `[lo-hi]` or a list of single characters. */
  datatype CharClass = Range(lo: char, hi: char) | AnyOf(chars: string)

  predicate InClass(c: char, k: CharClass) {
    match k
    case Range(lo, hi) => lo <= c <= hi
    case AnyOf(chars) => c in chars
  }

  /** One character class repeated `times` times (a literal character is a one-character class). */
  datatype Term = Term(k: CharClass, times: nat)

  /**
   * A JavaScript regular expression anchored with `^` and no flags: a series
   * of lookaheads `(?=.*[...])`, then a fixed-width body, optionally closed by `$`.
   */
  datatype Regex = Regex(lookaheads: seq<CharClass>, body: seq<Term>, anchoredEnd: bool)

  /** The body with its repetitions spelled out, one class per character matched. */
  function Expand(body: seq<Term>): (atoms: seq<CharClass>)
  {
    if body == [] then [] else seq(body[0].times, _ => body[0].k) + Expand(body[1..])
  }

  /** The index of the first line terminator, or `|s|`: how far `.*` can reach from the start. */
  function LineEnd(s: string): (n: nat)
    ensures n <= |s|
    ensures forall i | 0 <= i < n :: !IsLineTerminator(s[i])
    ensures n < |s| ==> IsLineTerminator(s[n])
  {
    if s == [] || IsLineTerminator(s[0]) then 0 else 1 + LineEnd(s[1..])
  }

  /** `(?=.*[k])` at the start of `s`: some character of class `k` before the first line break. */
  predicate Lookahead(s: string, k: CharClass) {
    exists i | 0 <= i < LineEnd(s) :: InClass(s[i], k)
  }

  /** `RegExp.prototype.test` for an expression anchored at the start. */
  predicate Test(re: Regex, s: string) {
    && (forall j | 0 <= j < |re.lookaheads| :: Lookahead(s, re.lookaheads[j]))
    && var atoms := Expand(re.body);
    && |atoms| <= |s|
    && (re.anchoredEnd ==> |atoms| == |s|)
    && (forall i | 0 <= i < |atoms| :: InClass(s[i], atoms[i]))
  }

  const Digit: CharClass := Range('0', '9')

  /** `/^01\d{8}$/` */
  const PhoneRegex: Regex := Regex([], [Term(AnyOf("0"), 1), Term(AnyOf("1"), 1), Term(Digit, 8)], true)

  /** `^(?=.*[a-z])(?=.*[A-Z])(?=.*[0-9])(?=.*[!@#$%^&*])` */
  const PasswordRegex: Regex := Regex([Range('a', 'z'), Range('A', 'Z'), Digit, AnyOf("!@#$%^&*")], [], false)

  // ---------------------------------------------------------------- Joi string schemas

  /** The string rules the schemas chain after `Joi.string()`. */
  datatype Rule = Min(n: nat) | Max(n: nat) | Length(n: nat) | Pattern(re: Regex) | EmailFormat

  datatype Presence = Required | Optional

  /** A `Joi.string()` schema: presence, the `trim()` flag, the `valid(...)` list (empty if none) and the rules in written order. */
  datatype StringSchema = StringSchema(presence: Presence, trim: bool, only: seq<string>, rules: seq<Rule>)

  /** Joi's error keys, the ones these schemas can raise. */
  datatype Issue =
    | AnyRequired | AnyOnly | StringBase | StringEmpty
    | StringMin | StringMax | StringLength | PatternBase | StringEmail

  /** Whether one rule rejects the (already converted) text; `isEmail` stands for Joi's address validator. */
  function RuleIssue(rule: Rule, t: string, isEmail: string -> bool): Option<Issue> {
    match rule
    case Min(n) => if |t| < n then Some(StringMin) else None
    case Max(n) => if |t| > n then Some(StringMax) else None
    case Length(n) => if |t| != n then Some(StringLength) else None
    case Pattern(re) => if !Test(re, t) then Some(PatternBase) else None
    case EmailFormat => if !isEmail(t) then Some(StringEmail) else None
  }

  /** Joi stops at the first failing rule (`abortEarly`). */
  function FirstIssue(rules: seq<Rule>, t: string, isEmail: string -> bool): (r: Option<Issue>)
    ensures r.None? <==> forall j | 0 <= j < |rules| :: RuleIssue(rules[j], t, isEmail).None?
  {
    if rules == [] then None
    else if RuleIssue(rules[0], t, isEmail).Some? then RuleIssue(rules[0], t, isEmail)
    else FirstIssue(rules[1..], t, isEmail)
  }

  /**
   * Validation of one field: a missing value fails only when required; a
   * `valid` list is checked first and exclusively; the text is trimmed when
   * `trim()` is set, then the empty string is refused, then the rules run.
   */
  function CheckString(f: StringSchema, v: Value, isEmail: string -> bool): (r: Option<Issue>)
    ensures v.Undefined? ==> (r.None? <==> f.presence.Optional?)
    ensures v.Null? ==> r.Some?
  {
    match v
    case Undefined => if f.presence == Required then Some(AnyRequired) else None
    case Null => if f.only != [] then Some(AnyOnly) else Some(StringBase)
    case Text(raw) =>
      var t := if f.trim then Trim(raw) else raw;
      if f.only != [] then (if t in f.only then None else Some(AnyOnly))
      else if t == "" then Some(StringEmpty)
      else FirstIssue(f.rules, t, isEmail)
  }

  // ---------------------------------------------------------------- the field rules of `userValidation.js`

  function NameSchema(p: Presence): StringSchema { StringSchema(p, true, [], [Min(2), Max(50)]) }
  function EmailSchema(p: Presence): StringSchema { StringSchema(p, false, [], [EmailFormat]) }
  function StrongPasswordSchema(p: Presence): StringSchema { StringSchema(p, false, [], [Min(8), Pattern(PasswordRegex)]) }
  function PhoneSchema(p: Presence): StringSchema { StringSchema(p, false, [], [Pattern(PhoneRegex), Length(10)]) }
  function SexeSchema(p: Presence): StringSchema { StringSchema(p, false, ["Masculin", "Feminin"], []) }
  function AdresseSchema(p: Presence): StringSchema { StringSchema(p, true, [], [Min(10), Max(255)]) }
  /** A bare `Joi.string().required()`. */
  const PresentSchema: StringSchema := StringSchema(Required, false, [], [])

  /** An object schema: its keys in declaration order. */
  type Schema = seq<(string, StringSchema)>

  const RegisterSchema: Schema := [
    ("firstname", NameSchema(Required)),
    ("lastname", NameSchema(Required)),
    ("email", EmailSchema(Required)),
    ("password", StrongPasswordSchema(Required)),
    ("phone", PhoneSchema(Required)),
    ("sexe", SexeSchema(Required)),
    ("adresse", AdresseSchema(Required))]

  const LoginSchema: Schema := [("email", EmailSchema(Required)), ("password", PresentSchema)]

  const ForgotPasswordSchema: Schema := [("email", EmailSchema(Required))]

  const ResetPasswordSchema: Schema := [("token", PresentSchema), ("password", StrongPasswordSchema(Required))]

  const UpdateProfileSchema: Schema := [
    ("firstname", NameSchema(Optional)),
    ("lastname", NameSchema(Optional)),
    ("phone", PhoneSchema(Optional)),
    ("sexe", SexeSchema(Optional)),
    ("adresse", AdresseSchema(Optional))]

  /** Why a body was rejected: the first field in schema order that fails, else a key the schema does not know. */
  datatype Violation = FieldIssue(key: string, issue: Issue) | UnknownKey

  function FieldsIssue(schema: Schema, body: Body, isEmail: string -> bool): (r: Option<Violation>)
    ensures r.None? <==> forall j | 0 <= j < |schema| :: CheckString(schema[j].1, Get(body, schema[j].0), isEmail).None?
  {
    if schema == [] then None
    else
      match CheckString(schema[0].1, Get(body, schema[0].0), isEmail)
      case Some(issue) => Some(FieldIssue(schema[0].0, issue))
      case None => FieldsIssue(schema[1..], body, isEmail)
  }

  predicate Declares(schema: Schema, key: string) {
    exists j | 0 <= j < |schema| :: schema[j].0 == key
  }

  /**
   * `schema.validate(body)`. Whether keys outside the schema are allowed is
   * an option of the calling middleware; Joi's default refuses them.
   */
  function Validate(schema: Schema, body: Body, allowUnknown: bool, isEmail: string -> bool): (r: Option<Violation>)
    ensures r.None? <==>
      && (forall j | 0 <= j < |schema| :: CheckString(schema[j].1, Get(body, schema[j].0), isEmail).None?)
      && (allowUnknown || forall k | k in body :: Declares(schema, k))
  {
    var fields := FieldsIssue(schema, body, isEmail);
    if fields.Some? then fields
    else if !allowUnknown && exists k | k in body :: !Declares(schema, k) then Some(UnknownKey)
    else None
  }

  /** `userIdValidation`: `Joi.number().integer().positive()` on an already converted number. */
  predicate UserIdAccepted(id: real) {
    id == id.Floor as real && id > 0.0
  }

  // ---------------------------------------------------------------- direct characterisations

  /** Ten characters: `0`, `1`, then eight decimal digits. */
  predicate IsPhone(s: string) {
    |s| == 10 && s[0] == '0' && s[1] == '1' && forall i | 2 <= i < 10 :: IsDigit(s[i])
  }

  /** Some character of `s` falls in class `k`. */
  predicate Has(s: string, k: CharClass) {
    exists i | 0 <= i < |s| :: InClass(s[i], k)
  }

  const LowerCase: CharClass := Range('a', 'z')
  const UpperCase: CharClass := Range('A', 'Z')
  const Special: CharClass := AnyOf("!@#$%^&*")

  /** The text before the first line break. */
  function FirstLine(s: string): (line: string)
    ensures |line| <= |s| && line == s[..|line|]
    ensures forall i | 0 <= i < |line| :: !IsLineTerminator(line[i])
  {
    s[..LineEnd(s)]
  }

  /** The password policy: at least 8 characters, and the four character kinds all found before the first line break. */
  predicate IsStrongPassword(s: string) {
    var line := FirstLine(s);
    |s| >= 8 && Has(line, LowerCase) && Has(line, UpperCase) && Has(line, Digit) && Has(line, Special)
  }

  lemma ExpandPhone()
    ensures Expand(PhoneRegex.body) == [AnyOf("0"), AnyOf("1"), Digit, Digit, Digit, Digit, Digit, Digit, Digit, Digit]
  {
    var body := PhoneRegex.body;
    assert body[1..][1..][1..] == [];
    assert Expand(body[1..][1..]) == seq(8, _ => Digit);
  }

  /** The phone rule (pattern, then length 10) accepts exactly the `01` numbers of ten digits. */
  lemma PhoneAccepted(p: Presence, s: string, isEmail: string -> bool)
    ensures CheckString(PhoneSchema(p), Text(s), isEmail).None? <==> IsPhone(s)
  {
    ExpandPhone();
    var atoms := Expand(PhoneRegex.body);
    if IsPhone(s) {
      forall i | 0 <= i < 10 ensures InClass(s[i], atoms[i]) {
        if i == 0 { assert s[0] in "0"; } else if i == 1 { assert s[1] in "1"; }
      }
      assert Test(PhoneRegex, s);
    }
    if Test(PhoneRegex, s) {
      assert InClass(s[0], atoms[0]) && InClass(s[1], atoms[1]);
      forall i | 2 <= i < 10 ensures IsDigit(s[i]) { assert InClass(s[i], atoms[i]); }
    }
  }

  /** A lookahead `(?=.*[k])` sees exactly the first line. */
  lemma LookaheadFirstLine(s: string, k: CharClass)
    ensures Lookahead(s, k) <==> Has(FirstLine(s), k)
  {
    var line := FirstLine(s);
    if Lookahead(s, k) {
      var i :| 0 <= i < LineEnd(s) && InClass(s[i], k);
      assert line[i] == s[i];
    }
    if Has(line, k) {
      var i :| 0 <= i < |line| && InClass(line[i], k);
      assert s[i] == line[i];
    }
  }

  /** The password pattern holds exactly when the four kinds occur on the first line. */
  lemma PasswordRegexIff(s: string)
    ensures Test(PasswordRegex, s) <==>
      var line := FirstLine(s);
      Has(line, LowerCase) && Has(line, UpperCase) && Has(line, Digit) && Has(line, Special)
  {
    var ks := PasswordRegex.lookaheads;
    assert Expand(PasswordRegex.body) == [];
    LookaheadFirstLine(s, LowerCase);
    LookaheadFirstLine(s, UpperCase);
    LookaheadFirstLine(s, Digit);
    LookaheadFirstLine(s, Special);
    assert ks == [LowerCase, UpperCase, Digit, Special];
    assert (forall j | 0 <= j < |ks| :: Lookahead(s, ks[j])) <==>
      Lookahead(s, ks[0]) && Lookahead(s, ks[1]) && Lookahead(s, ks[2]) && Lookahead(s, ks[3]);
  }

  /** The strong-password rule (at least 8, then the pattern) accepts exactly the strong passwords. */
  lemma PasswordAccepted(p: Presence, s: string, isEmail: string -> bool)
    ensures CheckString(StrongPasswordSchema(p), Text(s), isEmail).None? <==> IsStrongPassword(s)
  {
    PasswordRegexIff(s);
    var rules := StrongPasswordSchema(p).rules;
    assert (forall j | 0 <= j < |rules| :: RuleIssue(rules[j], s, isEmail).None?) <==>
      RuleIssue(rules[0], s, isEmail).None? && RuleIssue(rules[1], s, isEmail).None?;
  }

  lemma {:induction false} LineEndAt(s: string, n: nat)
    requires n <= |s|
    requires forall i | 0 <= i < n :: !IsLineTerminator(s[i])
    requires n < |s| ==> IsLineTerminator(s[n])
    ensures LineEnd(s) == n
  {
    if n > 0 {
      LineEndAt(s[1..], n - 1);
    }
  }

  /** For a password on one line, the policy is: 8 characters and one of each kind anywhere. */
  lemma PasswordOneLine(s: string)
    requires forall i | 0 <= i < |s| :: !IsLineTerminator(s[i])
    ensures IsStrongPassword(s) <==> |s| >= 8 && Has(s, LowerCase) && Has(s, UpperCase) && Has(s, Digit) && Has(s, Special)
  {
    LineEndAt(s, |s|);
  }

  /**
   * Only the first line counts: what follows a line break adds length but no
   * character kind (so `abcdefgh` + line feed + `A1!` is refused).
   */
  lemma PasswordAfterLineBreak(first: string, rest: string)
    requires forall i | 0 <= i < |first| :: !IsLineTerminator(first[i])
    ensures IsStrongPassword(first + "\n" + rest) <==>
      |first| + 1 + |rest| >= 8 && Has(first, LowerCase) && Has(first, UpperCase) && Has(first, Digit) && Has(first, Special)
  {
    var s := first + "\n" + rest;
    assert IsLineTerminator(s[|first|]);
    LineEndAt(s, |first|);
    assert FirstLine(s) == first;
  }

  /** A schema with two rules passes exactly when both rules do. */
  lemma TwoRules(f: StringSchema, t: string, isEmail: string -> bool)
    requires |f.rules| == 2
    ensures FirstIssue(f.rules, t, isEmail).None? <==>
      RuleIssue(f.rules[0], t, isEmail).None? && RuleIssue(f.rules[1], t, isEmail).None?
  {
    assert (forall j | 0 <= j < |f.rules| :: RuleIssue(f.rules[j], t, isEmail).None?) <==>
      RuleIssue(f.rules[0], t, isEmail).None? && RuleIssue(f.rules[1], t, isEmail).None?;
  }

  /** `firstname` and `lastname` are accepted exactly when their trimmed length is between 2 and 50. */
  lemma NameAccepted(p: Presence, s: string, isEmail: string -> bool)
    ensures CheckString(NameSchema(p), Text(s), isEmail).None? <==> 2 <= |Trim(s)| <= 50
  {
    TwoRules(NameSchema(p), Trim(s), isEmail);
  }

  /** `adresse` is accepted exactly when its trimmed length is between 10 and 255. */
  lemma AdresseAccepted(p: Presence, s: string, isEmail: string -> bool)
    ensures CheckString(AdresseSchema(p), Text(s), isEmail).None? <==> 10 <= |Trim(s)| <= 255
  {
    TwoRules(AdresseSchema(p), Trim(s), isEmail);
  }

  /** `email` is accepted exactly when it is a non-empty address by Joi's rules. */
  lemma EmailAccepted(p: Presence, s: string, isEmail: string -> bool)
    ensures CheckString(EmailSchema(p), Text(s), isEmail).None? <==> s != "" && isEmail(s)
  {
    var rules := EmailSchema(p).rules;
    assert (forall j | 0 <= j < |rules| :: RuleIssue(rules[j], s, isEmail).None?) <==> RuleIssue(rules[0], s, isEmail).None?;
  }

  /** `sexe` is accepted exactly when it is one of the two names, spelled exactly. */
  lemma SexeAccepted(p: Presence, v: Value, isEmail: string -> bool)
    requires v != Undefined
    ensures CheckString(SexeSchema(p), v, isEmail).None? <==> v == Text("Masculin") || v == Text("Feminin")
  {
  }

  /** Login only asks for a non-empty password: no length or strength rule. */
  lemma LoginPasswordAccepted(s: string, isEmail: string -> bool)
    ensures CheckString(PresentSchema, Text(s), isEmail).None? <==> s != ""
  {
  }

  /** A password that login accepts but registration refuses. */
  lemma LoginWeakerThanRegister(isEmail: string -> bool)
    ensures CheckString(PresentSchema, Text("a"), isEmail).None?
    ensures CheckString(StrongPasswordSchema(Required), Text("a"), isEmail).Some?
  {
  }

  /** A required field without a `valid` list passes exactly when it is present as text that passes. */
  lemma RequiredField(body: Body, key: string, f: StringSchema, isEmail: string -> bool)
    requires f.presence == Required
    ensures CheckString(f, Get(body, key), isEmail).None? <==>
      key in body && body[key].Text? && CheckString(f, body[key], isEmail).None?
  {
  }

  /** What registration accepts, field by field, in terms of the direct predicates. */
  predicate RegistrationValid(body: Body, isEmail: string -> bool) {
    && "firstname" in body && body["firstname"].Text? && 2 <= |Trim(body["firstname"].s)| <= 50
    && "lastname" in body && body["lastname"].Text? && 2 <= |Trim(body["lastname"].s)| <= 50
    && "email" in body && body["email"].Text? && body["email"].s != "" && isEmail(body["email"].s)
    && "password" in body && body["password"].Text? && IsStrongPassword(body["password"].s)
    && "phone" in body && body["phone"].Text? && IsPhone(body["phone"].s)
    && "sexe" in body && (body["sexe"] == Text("Masculin") || body["sexe"] == Text("Feminin"))
    && "adresse" in body && body["adresse"].Text? && 10 <= |Trim(body["adresse"].s)| <= 255
  }

  /** The seven checks of the registration schema, spelled out. */
  lemma RegisterFields(body: Body, isEmail: string -> bool)
    ensures FieldsIssue(RegisterSchema, body, isEmail).None? <==>
      && CheckString(NameSchema(Required), Get(body, "firstname"), isEmail).None?
      && CheckString(NameSchema(Required), Get(body, "lastname"), isEmail).None?
      && CheckString(EmailSchema(Required), Get(body, "email"), isEmail).None?
      && CheckString(StrongPasswordSchema(Required), Get(body, "password"), isEmail).None?
      && CheckString(PhoneSchema(Required), Get(body, "phone"), isEmail).None?
      && CheckString(SexeSchema(Required), Get(body, "sexe"), isEmail).None?
      && CheckString(AdresseSchema(Required), Get(body, "adresse"), isEmail).None?
  {
    var s0 := RegisterSchema;
    var s1 := s0[1..];
    var s2 := s1[1..];
    var s3 := s2[1..];
    var s4 := s3[1..];
    var s5 := s4[1..];
    var s6 := s5[1..];
    FieldsStep(s0, body, isEmail);
    FieldsStep(s1, body, isEmail);
    FieldsStep(s2, body, isEmail);
    FieldsStep(s3, body, isEmail);
    FieldsStep(s4, body, isEmail);
    FieldsStep(s5, body, isEmail);
    FieldsStep(s6, body, isEmail);
    assert s6[1..] == [];
  }

  /** One step of the field loop: the first field, then the rest. */
  lemma FieldsStep(schema: Schema, body: Body, isEmail: string -> bool)
    requires schema != []
    ensures FieldsIssue(schema, body, isEmail).None? <==>
      CheckString(schema[0].1, Get(body, schema[0].0), isEmail).None? && FieldsIssue(schema[1..], body, isEmail).None?
  {
  }

  predicate IsText(body: Body, key: string) {
    key in body && body[key].Text?
  }

  /** The seven registration fields are all present as text. */
  predicate HasRegisterFields(body: Body) {
    && IsText(body, "firstname") && IsText(body, "lastname") && IsText(body, "email") && IsText(body, "password")
    && IsText(body, "phone") && IsText(body, "sexe") && IsText(body, "adresse")
  }

  /** A body that passes registration carries all seven fields as text. */
  lemma RegisterNeedsAllFields(body: Body, allowUnknown: bool, isEmail: string -> bool)
    requires Validate(RegisterSchema, body, allowUnknown, isEmail).None?
    ensures HasRegisterFields(body)
  {
    RegisterFields(body, isEmail);
    RequiredField(body, "firstname", NameSchema(Required), isEmail);
    RequiredField(body, "lastname", NameSchema(Required), isEmail);
    RequiredField(body, "email", EmailSchema(Required), isEmail);
    RequiredField(body, "password", StrongPasswordSchema(Required), isEmail);
    RequiredField(body, "phone", PhoneSchema(Required), isEmail);
    RequiredField(body, "adresse", AdresseSchema(Required), isEmail);
    RequiredField(body, "sexe", SexeSchema(Required), isEmail);
  }

  /** Registration (with unknown keys allowed) accepts exactly the bodies whose seven fields satisfy the field rules. */
  lemma RegisterAccepted(body: Body, isEmail: string -> bool)
    ensures Validate(RegisterSchema, body, true, isEmail).None? <==> RegistrationValid(body, isEmail)
  {
    RegisterFields(body, isEmail);
    NameField(body, "firstname", isEmail);
    NameField(body, "lastname", isEmail);
    EmailField(body, isEmail);
    PasswordField(body, isEmail);
    PhoneField(body, isEmail);
    SexeField(body, isEmail);
    AdresseField(body, isEmail);
  }

  lemma NameField(body: Body, key: string, isEmail: string -> bool)
    ensures CheckString(NameSchema(Required), Get(body, key), isEmail).None? <==>
      key in body && body[key].Text? && 2 <= |Trim(body[key].s)| <= 50
  {
    RequiredField(body, key, NameSchema(Required), isEmail);
    if key in body && body[key].Text? { NameAccepted(Required, body[key].s, isEmail); }
  }

  lemma EmailField(body: Body, isEmail: string -> bool)
    ensures CheckString(EmailSchema(Required), Get(body, "email"), isEmail).None? <==>
      "email" in body && body["email"].Text? && body["email"].s != "" && isEmail(body["email"].s)
  {
    RequiredField(body, "email", EmailSchema(Required), isEmail);
    if "email" in body && body["email"].Text? { EmailAccepted(Required, body["email"].s, isEmail); }
  }

  lemma PasswordField(body: Body, isEmail: string -> bool)
    ensures CheckString(StrongPasswordSchema(Required), Get(body, "password"), isEmail).None? <==>
      "password" in body && body["password"].Text? && IsStrongPassword(body["password"].s)
  {
    RequiredField(body, "password", StrongPasswordSchema(Required), isEmail);
    if "password" in body && body["password"].Text? { PasswordAccepted(Required, body["password"].s, isEmail); }
  }

  lemma PhoneField(body: Body, isEmail: string -> bool)
    ensures CheckString(PhoneSchema(Required), Get(body, "phone"), isEmail).None? <==>
      "phone" in body && body["phone"].Text? && IsPhone(body["phone"].s)
  {
    RequiredField(body, "phone", PhoneSchema(Required), isEmail);
    if "phone" in body && body["phone"].Text? { PhoneAccepted(Required, body["phone"].s, isEmail); }
  }

  lemma SexeField(body: Body, isEmail: string -> bool)
    ensures CheckString(SexeSchema(Required), Get(body, "sexe"), isEmail).None? <==>
      "sexe" in body && (body["sexe"] == Text("Masculin") || body["sexe"] == Text("Feminin"))
  {
    RequiredField(body, "sexe", SexeSchema(Required), isEmail);
    if "sexe" in body && body["sexe"] != Undefined { SexeAccepted(Required, body["sexe"], isEmail); }
  }

  lemma AdresseField(body: Body, isEmail: string -> bool)
    ensures CheckString(AdresseSchema(Required), Get(body, "adresse"), isEmail).None? <==>
      "adresse" in body && body["adresse"].Text? && 10 <= |Trim(body["adresse"].s)| <= 255
  {
    RequiredField(body, "adresse", AdresseSchema(Required), isEmail);
    if "adresse" in body && body["adresse"].Text? { AdresseAccepted(Required, body["adresse"].s, isEmail); }
  }

  /** Login accepts exactly an address and any non-empty password. */
  lemma LoginAccepted(body: Body, isEmail: string -> bool)
    ensures Validate(LoginSchema, body, true, isEmail).None? <==>
      && IsText(body, "email") && body["email"].s != "" && isEmail(body["email"].s)
      && IsText(body, "password") && body["password"].s != ""
  {
    FieldsStep(LoginSchema, body, isEmail);
    FieldsStep(LoginSchema[1..], body, isEmail);
    assert LoginSchema[1..][1..] == [];
    RequiredField(body, "email", EmailSchema(Required), isEmail);
    RequiredField(body, "password", PresentSchema, isEmail);
    if IsText(body, "email") { EmailAccepted(Required, body["email"].s, isEmail); }
    if IsText(body, "password") { LoginPasswordAccepted(body["password"].s, isEmail); }
  }

  /** A reset request carries any non-empty token and a strong new password. */
  lemma ResetPasswordBodyAccepted(body: Body, isEmail: string -> bool)
    ensures Validate(ResetPasswordSchema, body, true, isEmail).None? <==>
      && IsText(body, "token") && body["token"].s != ""
      && IsText(body, "password") && IsStrongPassword(body["password"].s)
  {
    FieldsStep(ResetPasswordSchema, body, isEmail);
    FieldsStep(ResetPasswordSchema[1..], body, isEmail);
    assert ResetPasswordSchema[1..][1..] == [];
    RequiredField(body, "token", PresentSchema, isEmail);
    RequiredField(body, "password", StrongPasswordSchema(Required), isEmail);
    if IsText(body, "token") { LoginPasswordAccepted(body["token"].s, isEmail); }
    if IsText(body, "password") { PasswordAccepted(Required, body["password"].s, isEmail); }
  }

  /** A reset-mail request carries exactly one address. */
  lemma ForgotPasswordBodyAccepted(body: Body, isEmail: string -> bool)
    ensures Validate(ForgotPasswordSchema, body, true, isEmail).None? <==>
      IsText(body, "email") && body["email"].s != "" && isEmail(body["email"].s)
  {
    FieldsStep(ForgotPasswordSchema, body, isEmail);
    assert ForgotPasswordSchema[1..] == [];
    RequiredField(body, "email", EmailSchema(Required), isEmail);
    if IsText(body, "email") { EmailAccepted(Required, body["email"].s, isEmail); }
  }

  /** Every profile field is optional: the empty body passes. */
  lemma UpdateAcceptsEmpty(allowUnknown: bool, isEmail: string -> bool)
    ensures Validate(UpdateProfileSchema, map[], allowUnknown, isEmail).None?
  {
  }

  /** The profile schema has no `role` key, so with Joi's default a body naming `role` is refused. */
  lemma UpdateRefusesRoleKey(body: Body, isEmail: string -> bool)
    requires "role" in body
    ensures Validate(UpdateProfileSchema, body, false, isEmail).Some?
  {
    forall j | 0 <= j < |UpdateProfileSchema| ensures UpdateProfileSchema[j].0 != "role" {
      assert UpdateProfileSchema[j].0 in {"firstname", "lastname", "phone", "sexe", "adresse"};
    }
    assert !Declares(UpdateProfileSchema, "role");
  }

  /** The registration schema has no `role` key either: with Joi's default, naming a role is refused. */
  lemma RegisterRefusesRoleKey(body: Body, isEmail: string -> bool)
    requires "role" in body
    ensures Validate(RegisterSchema, body, false, isEmail).Some?
  {
    forall j | 0 <= j < |RegisterSchema| ensures RegisterSchema[j].0 != "role" {
      assert RegisterSchema[j].0 in {"firstname", "lastname", "email", "password", "phone", "sexe", "adresse"};
    }
    assert !Declares(RegisterSchema, "role");
  }

  /** Among whole numbers, the id rule accepts exactly those of at least 1. */
  lemma UserIdWhole(n: int)
    ensures UserIdAccepted(n as real) <==> n >= 1
  {
  }

  /** A number with a fractional part is refused whatever its sign. */
  lemma UserIdFraction(id: real)
    requires id != id.Floor as real
    ensures !UserIdAccepted(id)
  {
  }
}

=== FILE: wrappers.dfy ===
/** Option and Result, the failure-carrying values every transition of the model returns. */
module Wrappers {

  /** A value that may be absent: a SQL NULL, a missing key, a row that no query matched. */
  datatype Option<+T> = None | Some(value: T)

  /** The outcome of an operation that either returns a value or throws an error. */
  datatype Result<+T, +E> = Ok(value: T) | Err(error: E)
}
